=== FILE: README.md ===
# TCP rendezvous server and clients, modelled in Dafny

The system is a small text-protocol rendezvous service. Clients connect to a
TCP server and send requests made of a request line, `key: value` header
lines and a blank line, all separated by CRLF:

- `REGISTER` stores the client's ID, IP address and port, together with the
  connection it arrived on, in the server's registry. This is a dictionary
  that remembers insertion order.
- `BRIDGE` asks for a peer. The server answers with the first registered
  client, in insertion order, whose ID differs from the requester's.
- `CHAT` carries a text. The server relays it to the first other registered
  client whose connection still accepts a write, and reports whether the
  text was delivered.

The server serves one connection at a time and closes it when the session
ends. Its registry is never pruned.

The project models:

- the server's header decoder;
- the registry;
- the three request handlers;
- the dispatch of one message and the receive loop of one session;
- the argument checks of both clients;
- the exact request strings both clients build;
- the chat client's test for an incoming chat message.

The project is split by concern:

| file | module | contents |
|---|---|---|
| `text.dfy` | `Text` | Python's `str.split`, `strip` and `startswith`, and decimal digit strings (`int()` and `str()` of a port) |
| `wire.dfy` | `Wire` | `parse_headers`; every fixed request and reply string; decode-after-encode round trips |
| `registry.dfy` | `Peers` | connections (`Handle`: a writable flag and the list of messages written to it); the registry class; the two first-match scans |
| `server.dfy` | `Server` | the REGISTER, BRIDGE and CHAT handlers, the dispatch step and the session loop |
| `client.dfy` | `Client` | command-line validation and incoming-chat recognition, shared by both client scripts |
| `scenarios.dfy` | `Scenarios` | requests exactly as clients build them, pushed through the server, and runs of several sessions |

A connection is modelled as a `Handle`:

- a write succeeds exactly when the connection is still writable;
- a successful write appends the whole message to the handle's outbox;
- closing a handle makes every later write fail.

The two client scripts share their argument checks (TCP_client.py:14-37 and
register_and_bridge.py:14-37) and build byte-identical REGISTER and BRIDGE
strings (TCP_client.py:59, 72 and register_and_bridge.py:58, 67). One Dafny
definition serves both scripts, and each table row below cites one of them.

One receive is modelled as one whole message. An empty message stands for the zero-length read that ends a session.

## Model

| member | source | states |
|---|---|---|
| Text.Split | TCP_server.py:51 | `str.split`: at least one piece; the pieces joined with the separator give the text back; no piece contains the separator |
| Text.SplitJoinLines | TCP_server.py:51 | splitting CRLF-joined lines that contain no CRLF gives back exactly those lines |
| Text.IndexOf | TCP_server.py:53-54 | the first position where the pattern occurs, or None exactly when it occurs nowhere |
| Text.TrimStart | TCP_client.py:91 | `lstrip`: a suffix of the text that does not start with white space, and everything removed is white space |
| Text.TrimEnd | TCP_client.py:91 | `rstrip`: a prefix of the text that does not end with white space, and everything removed is white space |
| Text.Strip | TCP_client.py:91 | `strip`: the result is a contiguous piece of the text with only white space before and after it; neither of its ends is white space; it is empty exactly when the text is white space throughout |
| Text.StartsWith | TCP_client.py:94 | `startswith`: the text is the prefix followed by some text, in both directions |
| Text.Decimal | TCP_server.py:87 | `str()` of a non-negative integer is a digit string whose value is that integer, with no leading zero unless it is "0" |
| Text.DecimalValueDigits | TCP_server.py:69 | `int()` of a digit string: its last digit is the units digit of the value, and the value is 0 exactly when every digit is "0" |
| Text.DecimalOfValue | TCP_server.py:69 | printing the value of a digit string gives the string back exactly when it has no leading zero or is "0" (so "050" comes back as "50") |
| Wire.SplitHeader | TCP_server.py:53-54 | a line without `": "` gives nothing; otherwise key + `": "` + value is the line, and the key contains no `": "`, so the split is at the first occurrence |
| Wire.HeadersOf | TCP_server.py:51-55 | the header map of the lines after the request line, folded left to right (no lines give no headers); what it holds is stated by Wire.HeaderKeys and Wire.HeaderValue |
| Wire.RequestType | TCP_server.py:134-135 | line 0 of the message: the longest prefix with no CRLF, so the message either ends right after it or goes on with a CRLF |
| Wire.OneLineNoHeaders | TCP_server.py:136 | `parse_headers` of a message with no CRLF, a request line alone, is the empty map |
| Wire.HeadersAfterTypeLine | TCP_server.py:136 | `parse_headers` ignores line 0: the headers of a message are those of the lines after its first CRLF, whatever its request line |
| Wire.TypeLine | TCP_server.py:134-135 | a message that begins with a type word and a CRLF has that word as its request type, whatever follows |
| Wire.HeaderKeys | TCP_server.py:52-55 | a key is decoded exactly when some line after the request line is a header line with that key; other lines are skipped |
| Wire.HeaderValue | TCP_server.py:52-55 | a decoded key holds the value of the last line defining it, so a later duplicate overwrites an earlier one |
| Wire.ParseHeaders | TCP_server.py:49-56 | the decoding loop over the lines after line 0 builds exactly the header map of the message, and never fails |
| Wire.RegisterMessage | TCP_client.py:59 | the REGISTER string both clients send (also register_and_bridge.py:58): request line, clientID, IP and Port header lines, blank line; Wire.RegisterMessageDecodes states how it decodes |
| Wire.BridgeRequest | TCP_client.py:72 | the BRIDGE string both clients send (also register_and_bridge.py:67); Wire.BridgeRequestDecodes states how it decodes |
| Wire.ChatMessage | TCP_client.py:81 | the CHAT string the client sends and the server relays (TCP_server.py:106); Wire.ChatMessageDecodes states how it decodes |
| Wire.RegAckOk | TCP_server.py:74 | the successful REGACK, echoing clientID, IP and the Port text as received, then `Status: registered`; Server.RegAckOkIsNotError and Scenarios.PortTextEchoed state what is known of it |
| Wire.BridgeAck | TCP_server.py:87 | the BRIDGEACK naming a peer, with its port printed from the stored integer; Wire.BridgeAckDecodes states how it decodes |
| Wire.RegAckErrorDecodes | TCP_server.py:66 | the REGISTER failure reply has request type REGACK and decodes to just `Status: error` |
| Wire.ChatAckErrorDecodes | TCP_server.py:98 | the CHAT failure reply has request type CHATACK and decodes to just `Status: error` |
| Wire.ChatAckDeliveredDecodes | TCP_server.py:118 | the reply to a relayed CHAT has request type CHATACK and decodes to just `Status: delivered` |
| Wire.ChatAckNoPeersDecodes | TCP_server.py:120 | the reply to a CHAT nobody received has request type CHATACK and decodes to just `Status: no peers available` |
| Wire.UnknownTypeReplyDecodes | TCP_server.py:145 | the reply to any other request type has request type ERROR and decodes to just `Message: Unknown request type` |
| Wire.RegisterMessageDecodes | TCP_client.py:59 | the client's REGISTER string has request type REGISTER, and it decodes to exactly clientID, IP and Port when the values contain no CRLF |
| Wire.RegisterRequestDecodes | TCP_client.py:136 | the REGISTER string built from the integer listen port (also register_and_bridge.py:58) has request type REGISTER and decodes to clientID, IP and that port printed in decimal |
| Wire.BridgeRequestDecodes | TCP_client.py:72 | the BRIDGE string has request type BRIDGE and decodes to just its clientID |
| Wire.ChatMessageDecodes | TCP_client.py:81 | the CHAT string (also the layout the server relays) has request type CHAT and decodes to exactly clientID and message |
| Wire.BridgeAckDecodes | TCP_server.py:87 | a BRIDGEACK naming a peer decodes to that peer's clientID, IP and printed port |
| Wire.BareFieldsDecode | TCP_server.py:53 | a message whose field lines are bare `key:` (a colon but no `": "`) decodes to no headers |
| Wire.EmptyBridgeAckDecodes | TCP_server.py:82 | the server's empty BRIDGEACK has request type BRIDGEACK and decodes to an empty header map |
| Peers.Handle.Write | TCP_server.py:107 | `sendall` succeeds exactly when the connection is writable; on success the whole message is appended to the outbox, otherwise nothing is |
| Peers.Handle.Close | TCP_server.py:154 | after closing, the connection is no longer writable and nothing written before is lost |
| Peers.InsertionOrder | TCP_server.py:69 | dictionary order after an assignment: a new key goes last, an existing key keeps its position; no key is lost or duplicated |
| Peers.FirstOtherThan | TCP_server.py:85-87 | the first position whose ID differs from the requester's, with all before it equal to it; None exactly when every ID equals it |
| Peers.FirstDeliverable | TCP_server.py:102-107 | the first position whose ID differs from the sender's and whose write succeeds; None exactly when there is no such position |
| Peers.FirstDeliverableAt | TCP_server.py:102-111 | a qualifying position preceded by no qualifying one is the one the relay picks |
| Peers.AllWritableDeliversToFirstOther | TCP_server.py:85-111 | while every connection is open, CHAT reaches exactly the peer BRIDGE names |
| Peers.Registry.constructor | TCP_server.py:46 | the registry starts empty |
| Peers.Registry.Put | TCP_server.py:69 | storing under an ID overwrites only that entry, keeps insertion order and keeps the ID list and the map consistent |
| Server.RegAckOkIsNotError | TCP_server.py:74 | a successful REGACK is never the error REGACK |
| Server.Present | TCP_server.py:65 | definition, with no contract of its own: the falsy `headers.get(key)` test, true exactly when the key is there with a non-empty value (also lines 81 and 97); what it decides is stated by the contracts of Server.RegisterReply, Server.BridgeReply and Server.ChatReply |
| Server.RegisterReply | TCP_server.py:59-74 | the error REGACK exactly when clientID, IP or Port is missing or empty; an exception exactly when Port is not an integer; otherwise a REGACK echoing the raw Port text |
| Server.HandleRegister | TCP_server.py:59-74 | the reply is RegisterReply; only a successful REGISTER changes the registry, mapping clientID to (IP, int(Port), own connection) in insertion order |
| Server.BridgeAckIsNotEmpty | TCP_server.py:87 | a BRIDGEACK naming a peer is never the empty BRIDGEACK |
| Server.BridgeReply | TCP_server.py:78-89 | the empty BRIDGEACK exactly when clientID is missing or every registered ID equals it; otherwise the first other entry in insertion order, with its stored address and port |
| Server.ChatAcksDistinct | TCP_server.py:98-120 | the three CHATACK replies differ from each other |
| Server.ChatReply | TCP_server.py:92-120 | the error CHATACK exactly when clientID or message is missing; "delivered" exactly when some other peer's connection is writable; "no peers available" exactly when none is |
| Server.Recipient | TCP_server.py:102-111 | the connection CHAT is written to: none exactly when every registered ID is the sender's or has a closed connection; otherwise that of the first ID in insertion order that is not the sender's and is writable |
| Server.RelayedMessageDecodes | TCP_server.py:106 | the forwarded CHAT string has request type CHAT and decodes back to exactly the sender's clientID and text |
| Server.Forward | TCP_server.py:101-111 | the relay loop writes the CHAT bytes to exactly the first other writable peer's connection, and to no other; it reports success exactly when such a peer exists |
| Server.HandleChat | TCP_server.py:92-120 | the reply is ChatReply; an incomplete request writes nothing; a complete one relays exactly `CHAT\r\nclientID: …\r\nmessage: …\r\n\r\n` as Forward does |
| Server.Response | TCP_server.py:134-145 | what one message gets in a given registry state: an exception (ending the session) exactly when it is a complete REGISTER whose Port is not an integer; otherwise the reply of the handler chosen by line 0, or the unknown-type ERROR |
| Server.AbortsIffRegisterRaises | TCP_server.py:59-69 | a message raises (ending the session, TCP_server.py:150) exactly when it is a REGISTER whose handler raises at `int(port)` instead of returning a reply |
| Server.RelayTarget | TCP_server.py:101-111 | the connection a message's relay goes to: none unless it is a complete CHAT; when there is one, it is the connection of a registered entry whose connection is writable |
| Server.TargetRegistered | TCP_server.py:102-107 | a relay only ever goes to a connection held in the registry |
| Server.Dispatch | TCP_server.py:134-145 | line 0 of the message is compared exactly with REGISTER, BRIDGE and CHAT; one handler runs, with the effects above (REGISTER changes the registry as HandleRegister does, CHAT writes only to RelayTarget); anything else gets the unknown-type ERROR and changes nothing; the session's own writable flag is untouched |
| Server.StoreGrows | TCP_server.py:69 | storing an entry on this connection keeps every ID and only adds or replaces entries that point at this connection |
| Server.EntriesGrowTransitive | TCP_server.py:126-147 | "no ID dropped, every new or replaced entry uses this connection" carries over a sequence of messages |
| Server.Process | TCP_server.py:134-145 | one dispatch, stated independently of the request type: the outcome is Response of the registry as it was; a REGISTER changes the registry as RegisterEffect says and anything else leaves it unchanged; every other connection is untouched except the relay target, which receives the relayed CHAT once and stays open |
| Server.Serve | TCP_server.py:134-147 | one loop pass: the outcome is exactly Response of the message in the registry as it was before; a REGISTER changes the registry as RegisterEffect says and anything else leaves it unchanged; every connection other than this one keeps its writable flag and receives the relayed CHAT exactly when it is the relay target, and nothing otherwise; a reply is sent exactly when there is one and this connection is still writable; its outbox gains a CHAT relayed to itself (when it is the relay target) followed by the reply, and nothing else; an exception writes nothing and leaves the registry unchanged |
| Server.Stored | TCP_server.py:69 | the registry contents after one message: only a storing REGISTER changes them, and then its clientID is present on this connection; IDs are never lost and every added or replaced entry is on this connection; consistency is kept |
| Server.StoredAll | TCP_server.py:126-147 | the contents after the first n messages of a session, folded with Stored: they only grow, by entries on this connection, and stay consistent |
| Server.RegisteredSnoc | TCP_server.py:69 | a client stored by an earlier REGISTER of the session is still present on this connection after one more message, and a storing REGISTER adds its own clientID |
| Server.Transcript | TCP_server.py:147 | what the session's own connection holds after n answered messages: the old outbox is kept as a prefix and at least one element is added per reply |
| Server.TranscriptSnoc | TCP_server.py:147 | one more answered message appends what it relayed to this connection, then its reply, to the transcript |
| Server.TranscriptAgrees | TCP_server.py:147 | the transcript of the first n exchanges does not depend on later ones |
| Server.FlagsInAt | TCP_server.py:107 | the k-th flag the handlers see is whether the k-th ID's connection is registered and open |
| Server.FlagsMatch | TCP_server.py:107 | while the session knows every registered connection's flag, the writability the CHAT handler observes is the one the session recorded |
| Server.RepliesSnoc | TCP_server.py:147 | a reply that is the Response to the next message in the registry state before it extends the matching replies of a session |
| Server.AnsweredSnoc | TCP_server.py:127-147 | one more message that was non-empty, did not raise and relayed nothing but its own CHAT extends the answered messages |
| Server.RelayAtIsChat | TCP_server.py:106-107 | what a connection receives while one message is handled is nothing or that message's relayed CHAT, and the latter only for a complete CHAT |
| Server.RelaysSnoc | TCP_server.py:106-107 | appending what this connection received while the next message was handled keeps `relayed[k]` equal to RelayAt for every k |
| Server.DeliverSnoc | TCP_server.py:106-107 | delivering the next message's relay to its RelayTargetAt keeps what every connection received equal to RelaysTo, the relays the messages so far sent it (ReceivedBy) |
| Server.DeliverAt | TCP_server.py:107 | a connection's outbox after a relay: one more message, the relayed CHAT, exactly when it is the target, and no change otherwise |
| Server.TraceSnoc | TCP_server.py:127-147 | one more dispatched message extends the trace: when it is answered, its reply is its ResponseAt and what this connection received is its RelayAt; every other connection receives its relay either way |
| Server.Turn | TCP_server.py:134-147 | one loop pass, as a step of the session: the outcome is Response of the contents before it, with the writability recorded at the start of the session; the contents become Stored of the old ones; the relay goes to exactly RelayTarget of those contents; this connection gains the relayed CHAT exactly when it is that target, then the reply, which is sent exactly when there is one and this connection is writable; every other connection stays open and gains the relayed CHAT exactly when it is the target, and nothing otherwise |
| Server.ProgressSettles | TCP_server.py:124-154 | what a session has done to the registry and to the other connections does not depend on the session's own connection |
| Server.Begin | TCP_server.py:124-126 | before the first message, nothing has been answered, stored or relayed |
| Server.Step | TCP_server.py:127-147 | one non-empty message takes the session's trace one message further: a reply goes out exactly when the message does not raise and the connection is writable; then the reply is ResponseAt of the message, and what this connection received meanwhile is RelayAt; every other connection receives exactly its RelayAt |
| Server.Exchange | TCP_server.py:126-147 | the receive loop stops at the first empty message, at the first one that raises or whose reply cannot be written, or at the end of the input; its trace covers exactly the messages dispatched |
| Server.SessionAnswersUpTo | TCP_server.py:126-147 | a session on a writable connection whose first n messages are answered and whose next one is empty sends exactly those n replies, in order, and this connection receives exactly their relays |
| Server.Handled | TCP_server.py:126-150 | how many messages a session dispatched: one more than it answered exactly when it stopped at a non-empty message |
| Server.Session | TCP_server.py:124-154 | the messages are answered one reply each, in order, up to the first one that is empty or raises (REGISTER with a non-integer Port), which ends the session; a connection already closed gets no reply at all; the k-th reply is the Response to the k-th message in the registry left by the messages before it; every answered message is non-empty and does not raise; the outbox is the old outbox followed, message by message, by `relayed[k]`, exactly the CHAT relayed to this connection while the k-th message was handled (RelayAt), and the reply; every other connection keeps its writable flag and holds its old outbox followed by exactly the CHAT messages the session relayed to it, in order (RelaysTo); the registry holds what the dispatched messages stored, every client registered by the session is present on this connection, and the connection ends closed |
| Client.SplitTwoIff | register_and_bridge.py:21-28 | splitting on ":" gives exactly two parts exactly when the address holds one colon, and then the parts are the text before and after it |
| Client.ParseCliArgs | TCP_client.py:14-37 | rejects a listen port outside 1..65535; then an address without exactly one colon; then a server port that is not a digit string in 1..65535; otherwise returns host and integer port |
| Client.IsIncomingChat | TCP_client.py:91-94 | the stripped text begins with "CHAT\r\n" exactly when, past its leading white space, the text begins with "CHAT\r\n" and has a non-space character after those six (so "CHAT\r\n" alone is rejected, its CRLF being stripped) |
| Client.IncomingChatIff | TCP_client.py:91-94 | for text whose first character is not white space and that has a non-space character at some position k ≥ 6, the stripped prefix test agrees with the plain prefix test; texts without such a k (such as "CHAT\r\n" itself) are not covered |
| Client.RelayedChatRecognised | TCP_client.py:94 | the CHAT text the server relays is recognised as a chat message |
| Client.ChatAckNotRecognised | TCP_client.py:94 | no CHATACK reply, whatever its status, is taken for a chat message |
| Scenarios.Register | TCP_server.py:138-139 | the client's REGISTER, dispatched, stores the client with its announced address and replies the REGACK echoing the printed port |
| Scenarios.Bridge | TCP_server.py:140-141 | the client's BRIDGE, dispatched, gets BridgeReply for its clientID and changes nothing |
| Scenarios.Chat | TCP_server.py:142-143 | the client's CHAT, dispatched, gets ChatReply and relays the CHAT string to the Recipient only |
| Scenarios.BridgeNamesOther | TCP_server.py:85-87 | with two IDs registered, BRIDGE from the second names the first, with its stored address |
| Scenarios.ChatReachesOther | TCP_server.py:102-120 | with two IDs registered, CHAT from the second is delivered to the first exactly when its connection is writable, otherwise no peers are available |
| Scenarios.AnsweredNext | TCP_server.py:126-147 | a message handled in the contents the messages before it left is answered with the expected reply and relay (ResponseAt, RelayAt), and leaves the contents for the next one (StoredAll) |
| Scenarios.RegisterStep | TCP_server.py:59-74 | a client's REGISTER in any registry state: answered with the REGACK echoing the printed port, stores the client on this connection in insertion order and relays nothing |
| Scenarios.BridgeStep | TCP_server.py:78-89 | a client's BRIDGE in any registry state: answered with BridgeReply for its clientID, storing and relaying nothing |
| Scenarios.ChatStep | TCP_server.py:92-120 | a client's CHAT in any registry state: answered with ChatReply, storing nothing, and the sender's own connection receives the CHAT exactly when it is the Recipient |
| Scenarios.FirstSession | TCP_server.py:124-154 | a session on a fresh server holding a client's REGISTER and then the empty read: the reply is exactly its REGACK, which is all the connection receives; the registry holds that client alone on this connection, and the connection ends closed |
| Scenarios.BridgeThenChat | TCP_server.py:78-120 | BRIDGE then CHAT from the second of two registered IDs: BRIDGE names the first; CHAT reaches its connection exactly when that is writable |
| Scenarios.StalePeer | TCP_server.py:170-174 | sessions run one after another, so a peer registered in an earlier session is still named by BRIDGE while CHAT to it finds no peers; its connection holds only its own REGACK |
| Scenarios.FlagsAllOpen | TCP_server.py:107 | while every ID is registered on one open connection, every writability flag the CHAT handler meets is set |
| Scenarios.TwoOnOneReplies | TCP_server.py:85-118 | two IDs on one open connection: BRIDGE from the second names the first, and CHAT from the second is delivered to that same connection |
| Scenarios.SelfRelaySteps | TCP_server.py:134-147 | the four requests of SelfRelay, each in the registry the ones before it left: two REGACKs, a BRIDGEACK naming `a`, and a CHAT relayed back to the sender's own connection and acknowledged as delivered |
| Scenarios.SelfRelayResponses | TCP_server.py:126-147 | in the session of SelfRelay, the first four messages are answered, and ResponseAt and RelayAt give exactly the expected replies and relays |
| Scenarios.SelfRelayTranscript | TCP_server.py:147 | the outbox of SelfRelay's connection: the first three replies, then the relayed CHAT, then the fourth reply |
| Scenarios.SelfRelay | TCP_server.py:124-154 | a client that registers as `a` and then as `b` on one connection, asks for a peer and chats as `b`: the replies are both REGACKs, the BRIDGEACK naming `a` and "delivered"; the connection holds exactly those REGACKs and BRIDGEACK, then its own text relayed as a CHAT from `b` (line 107), then "delivered" (line 147), and ends closed |
| Scenarios.PortTextEchoed | TCP_server.py:74 | REGACK echoes the Port text exactly as received |
| Scenarios.LoneBridge | TCP_server.py:124-154 | a session holding one BRIDGE on an empty registry, then the empty read: the only reply is the empty BRIDGEACK, which is all the connection receives, and the connection ends closed |
| Scenarios.BadPortEndsSession | TCP_server.py:150-154 | a REGISTER whose Port is not an integer makes `int()` raise (TCP_server.py:69): the session ends at once with no reply, even to a following message, nothing is written and the connection is closed |
| Scenarios.PortTextNormalised | TCP_server.py:87 | a later BRIDGEACK prints the stored integer, which gives back the registered Port text exactly when the text has no leading zero |

## Left out

- Sockets are left out: creating, binding, listening, accepting and connecting, as well as `recv(1024)`. Their only effect kept is a write that fails on a closed connection. One receive is one whole message. The 1024-byte limit and message framing are not modelled.
- A failing `sendall` may have sent part of its bytes before failing. The model's Handle.Write delivers all or nothing.
- SIGINT handling, `os._exit` and the server socket cleanup in `main` (TCP_server.py:11-30, 157-185) are left out. They are process lifecycle, not protocol.
- The server's own `--port` range check (TCP_server.py:33-43) is left out. It guards only the bind.
- `argparse`, `sys.exit` and the logging to standard output are left out. Only the validation outcomes are modelled.
- The clients' interactive command loops, `send_request`, and `socket.gethostbyname` are left out. The clients' IP address is a parameter.
- UTF-8 encoding and decoding are left out. Text is a sequence of characters.
- Server.RegisterReply: treats Port as an integer only when it is a string of ASCII decimal digits. Python's `int()` also accepts surrounding white space, a sign, underscores between digits and non-ASCII digits. For such a Port the model reports an exception where the server would store the value.
- Client.ParseCliArgs: requires the server port to be ASCII decimal digits. Python's `isdigit` also accepts other Unicode digits.
- Text.TrimStart: its white-space set is the ASCII one. Python's `strip()` also removes non-ASCII white space.
- Text.TrimEnd: the same ASCII white-space set as Text.TrimStart.
- Text.Strip: removes the same ASCII white-space set as Text.TrimStart, not all of Python's Unicode white space.

=== FILE: client.dfy ===
/**
  The client side: validation of the command-line arguments (shared by the
  chat client and the register-and-bridge client) and recognition of an
  incoming chat message.
 */
module Client {
  import opened Text
  import opened Wire

  /** Why argument validation stops the client. */
  datatype CliError = PortOutOfRange | NotHostPort | BadServerPort

  datatype Config = Config(id: string, listenPort: int, serverHost: string, serverPort: nat)

  datatype Result<T> = Ok(value: T) | Err(error: CliError)

  predicate InPortRange(p: int)
  {
    1 <= p <= 65535
  }

  /** `s` holds exactly one colon, at position `i`. */
  predicate OneColonAt(s: string, i: int)
  {
    0 <= i < |s| && s[i] == ':' && ':' !in s[..i] && ':' !in s[i + 1..]
  }

  /** A port written as decimal digits whose value is a valid port. */
  predicate ValidPortText(t: string)
  {
    IsDigits(t) && InPortRange(DecimalValue(t))
  }

  lemma ColonFreeParts(parts: seq<string>)
    requires forall k :: 0 <= k < |parts| ==> Free(parts[k], ":")
    ensures forall k :: 0 <= k < |parts| ==> ':' !in parts[k]
  {
    forall k | 0 <= k < |parts| ensures ':' !in parts[k] {
      FreeChar(parts[k], ':');
    }
  }

  /**
    Splitting on ":" gives exactly two parts if and only if the text holds
    exactly one colon, and then the parts are the text before and after it.
   */
  lemma SplitTwoIff(s: string)
    ensures |Split(s, ":")| == 2 <==> exists i :: OneColonAt(s, i)
    ensures forall i :: OneColonAt(s, i) ==> Split(s, ":") == [s[..i], s[i + 1..]]
  {
    var parts := Split(s, ":");
    ColonFreeParts(parts);
    if |parts| == 1 {
      assert s == parts[0];
    } else if |parts| == 2 {
      var a, b := parts[0], parts[1];
      assert s == a + ":" + b by {
        assert parts[1..] == [b];
      }
      var i := |a|;
      assert s[..i] == a && s[i + 1..] == b;
      assert OneColonAt(s, i);
      forall j | 0 <= j < |s| && j != i ensures !OneColonAt(s, j) {
        if j < i {
          assert s[j] == a[j];
        } else {
          assert s[..j][i] == ':';
        }
      }
    } else {
      forall i ensures !OneColonAt(s, i) {
        ManyPartsTwoColons(s, parts, i);
      }
    }
  }

  lemma ManyPartsTwoColons(s: string, parts: seq<string>, i: int)
    requires |parts| >= 3 && Join(parts, ":") == s
    requires forall k :: 0 <= k < |parts| ==> ':' !in parts[k]
    ensures !OneColonAt(s, i)
  {
    var p0, p1, rest := parts[0], parts[1], Join(parts[2..], ":");
    assert parts[1..][1..] == parts[2..];
    assert s == p0 + ":" + (p1 + ":" + rest);
    var c0, c1 := |p0|, |p0| + 1 + |p1|;
    assert s[c0] == ':' && s[c1] == ':';
    if 0 <= i < c0 {
      assert s[i + 1..][c0 - i - 1] == ':';
    } else if i == c0 {
      assert s[i + 1..][c1 - i - 1] == ':';
    } else if c0 < i <= |s| {
      assert s[..i][c0] == ':';
    }
  }

  /**
    The argument checks of both clients: the listen port must be in
    1..65535; the server address must hold exactly one colon, and the text
    after it must be a decimal port in 1..65535. The host part is not
    checked and may be empty.
   */
  function ParseCliArgs(id: string, port: int, server: string): (r: Result<Config>)
    ensures r == Err(PortOutOfRange) <==> !InPortRange(port)
    ensures r == Err(NotHostPort) <==> InPortRange(port) && !exists i :: OneColonAt(server, i)
    ensures r == Err(BadServerPort) <==>
      InPortRange(port) && exists i :: (OneColonAt(server, i) && !ValidPortText(server[i + 1..]))
    ensures r.Ok? ==> r.value.id == id && r.value.listenPort == port && InPortRange(r.value.serverPort)
    ensures r.Ok? ==> exists i :: (OneColonAt(server, i) && r.value.serverHost == server[..i] &&
      ValidPortText(server[i + 1..]) && r.value.serverPort == DecimalValue(server[i + 1..]))
  {
    if !InPortRange(port) then Err(PortOutOfRange)
    else
      var parts := Split(server, ":");
      SplitTwoIff(server);
      if |parts| != 2 then Err(NotHostPort)
      else if !IsDigits(parts[1]) || !InPortRange(DecimalValue(parts[1])) then Err(BadServerPort)
      else Ok(Config(id, port, parts[0], DecimalValue(parts[1])))
  }

  /**
    The test the chat client applies to what it receives: after stripping, it
    begins with "CHAT\r\n". Because the trailing strip would also take that
    CRLF, this holds exactly when, past the leading white space, the text
    begins with "CHAT\r\n" AND has a non-space character after those six.
   */
  predicate IsIncomingChat(text: string): (b: bool)
    ensures b <==> ChatAfterLeadingSpace(TrimStart(text))
  {
    StrippedChat(text);
    StartsWith(Strip(text), "CHAT\r\n")
  }

  /** `t` begins with "CHAT\r\n" and has a non-space character after it. */
  predicate ChatAfterLeadingSpace(t: string)
  {
    StartsWith(t, "CHAT\r\n") && exists k :: 6 <= k < |t| && !IsSpace(t[k])
  }

  lemma StrippedChat(text: string)
    ensures StartsWith(Strip(text), "CHAT\r\n") <==> ChatAfterLeadingSpace(TrimStart(text))
  {
    var t := TrimStart(text);
    if StartsWith(TrimEnd(t), "CHAT\r\n") {
      TrimmedChat(t);
    }
    if ChatAfterLeadingSpace(t) {
      UntrimmedChat(t);
    }
  }

  lemma TrimmedChat(t: string)
    requires StartsWith(TrimEnd(t), "CHAT\r\n")
    ensures ChatAfterLeadingSpace(t)
  {
    var r := TrimEnd(t);
    assert r[5] == r[..6][5] == '\n';
    var k := |r| - 1;
    assert t[k] == r[k];
    assert t[..6] == r[..6];
  }

  lemma UntrimmedChat(t: string)
    requires ChatAfterLeadingSpace(t)
    ensures StartsWith(TrimEnd(TrimStart(t)), "CHAT\r\n")
  {
    var k :| 6 <= k < |t| && !IsSpace(t[k]);
    assert t[0] == t[..6][0] == 'C';
    StripKeepsPrefix(t, k);
    var r := Strip(t);
    assert r[..6] == r[..k][..6];
    assert t[..6] == t[..k][..6];
  }

  /**
    Stripping text that starts with a non-space character and has another one
    at or after position `k` keeps its first `k` characters.
   */
  lemma StripKeepsPrefix(s: string, k: nat)
    requires k < |s| && !IsSpace(s[0]) && !IsSpace(s[k])
    ensures |s[..k]| <= |Strip(s)| && Strip(s)[..k] == s[..k]
  {
    assert TrimStart(s) == s;
    var r := TrimEnd(s);
    assert |r| > k;
    assert r[..k] == s[..k];
  }

  /**
    For text with no leading white space and with a non-space character
    somewhere after its first six, the strip does not matter: it counts as a
    chat message exactly when it begins with "CHAT\r\n".
   */
  lemma IncomingChatIff(s: string, k: nat)
    requires 6 <= k < |s| && !IsSpace(s[0]) && !IsSpace(s[k])
    ensures IsIncomingChat(s) <==> StartsWith(s, "CHAT\r\n")
  {
    StripKeepsPrefix(s, k);
    assert Strip(s)[..6] == Strip(s)[..k][..6];
    assert s[..6] == s[..k][..6];
  }

  /** The CHAT message the server relays is recognised by the receiving client. */
  lemma RelayedChatRecognised(id: string, message: string)
    ensures IsIncomingChat(ChatMessage(id, message))
  {
    var s := ChatMessage(id, message);
    assert s[6] == 'c';
    IncomingChatIff(s, 6);
    assert s[..6] == "CHAT\r\n";
  }

  /**
    A CHATACK reply, whatever its status (error, delivered or no peers
    available), is not mistaken for a chat message.
   */
  lemma ChatAckNotRecognised(status: string)
    ensures !IsIncomingChat("CHATACK\r\nStatus: " + status + "\r\n\r\n")
  {
    var s := "CHATACK\r\nStatus: " + status + "\r\n\r\n";
    assert s[9] == 'S';
    IncomingChatIff(s, 9);
    assert s[4] == 'A';
  }
}

=== FILE: registry.dfy ===
/**
  The server's peer registry: a dictionary from client ID to
  (IP address, port, connection) that remembers insertion order, and the two
  first-match scans the request handlers run over it.
 */
module Peers {
  import opened Text

  /**
    The write side of one client connection. A write either delivers its
    bytes whole (they are appended to `outbox`) or fails and delivers
    nothing; it fails exactly when the connection is no longer writable,
    which is the case once the server has closed it.
   */
  class Handle {
    var writable: bool
    var outbox: seq<string>

    constructor ()
      ensures writable && outbox == []
    {
      writable := true;
      outbox := [];
    }

    /** Sends `data`; `ok` reports whether it went out. */
    method Write(data: string) returns (ok: bool)
      modifies this
      ensures ok == old(writable)
      ensures writable == old(writable)
      ensures outbox == if ok then old(outbox) + [data] else old(outbox)
    {
      ok := writable;
      if ok {
        outbox := outbox + [data];
      }
    }

    /** Closes the connection: nothing written before is lost, nothing more can be written. */
    method Close()
      modifies this
      ensures !writable && outbox == old(outbox)
    {
      writable := false;
    }
  }

  /** A registry value: the address a client announced and the connection it registered on. */
  datatype Peer = Peer(ip: string, port: nat, handle: Handle)

  /** No ID occurs twice: none is among those listed before it. */
  predicate NoDup(ids: seq<string>)
  {
    forall j :: 0 <= j < |ids| ==> ids[j] !in ids[..j]
  }

  /** `order` lists the keys of `entries`, each once, in insertion order. */
  ghost predicate Consistent(order: seq<string>, entries: map<string, Peer>)
  {
    NoDup(order) && (forall id :: id in entries <==> id in order)
  }

  /**
    The key order after storing under `id`: a new key goes last, an existing
    key keeps its position.
   */
  function InsertionOrder(order: seq<string>, id: string): (r: seq<string>)
    ensures id in r
    ensures forall x :: x in r <==> x in order || x == id
    ensures |order| <= |r| <= |order| + 1 && r[..|order|] == order
    ensures id in order <==> |r| == |order|
    ensures NoDup(order) ==> NoDup(r)
  {
    if id in order then order
    else
      var r := order + [id];
      assert forall j :: 0 <= j < |order| ==> r[..j] == order[..j];
      assert r[..|order|] == order;
      r
  }

  /**
    The position of the first key that differs from `exclude`, or None when
    every key equals it. This is the scan BRIDGE runs over the registry.
   */
  function FirstOtherThan(order: seq<string>, exclude: string): (r: Option<nat>)
    ensures r.Some? ==> r.value < |order| && order[r.value] != exclude
    ensures r.Some? ==> forall k :: 0 <= k < r.value ==> order[k] == exclude
    ensures r.None? <==> forall k :: 0 <= k < |order| ==> order[k] == exclude
    decreases |order|
  {
    if order == [] then None
    else if order[0] != exclude then Some(0)
    else
      match FirstOtherThan(order[1..], exclude)
      case None => None
      case Some(j) => Some(j + 1)
  }

  /**
    The position of the first key that differs from `exclude` and whose
    connection is writable (`writable[k]` is the flag of `order[k]`), or None
    when there is none. This is the peer CHAT delivers to.
   */
  function FirstDeliverable(order: seq<string>, exclude: string, writable: seq<bool>): (r: Option<nat>)
    requires |writable| == |order|
    ensures r.Some? ==> r.value < |order| && order[r.value] != exclude && writable[r.value]
    ensures r.Some? ==> forall k :: 0 <= k < r.value ==> order[k] == exclude || !writable[k]
    ensures r.None? <==> forall k :: 0 <= k < |order| ==> order[k] == exclude || !writable[k]
    decreases |order|
  {
    if order == [] then None
    else if order[0] != exclude && writable[0] then Some(0)
    else
      match FirstDeliverable(order[1..], exclude, writable[1..])
      case None => None
      case Some(j) => Some(j + 1)
  }

  /** A position that qualifies and is preceded by none that does is the one FirstDeliverable finds. */
  lemma FirstDeliverableAt(order: seq<string>, exclude: string, writable: seq<bool>, i: nat)
    requires |writable| == |order| && i < |order|
    requires order[i] != exclude && writable[i]
    requires forall k :: 0 <= k < i ==> order[k] == exclude || !writable[k]
    ensures FirstDeliverable(order, exclude, writable) == Some(i)
  {
    assert FirstDeliverable(order, exclude, writable).Some?;
  }

  /**
    While every connection is open, CHAT reaches exactly the peer BRIDGE
    would name.
   */
  lemma {:induction false} AllWritableDeliversToFirstOther(order: seq<string>, exclude: string, writable: seq<bool>)
    requires |writable| == |order|
    requires forall k :: 0 <= k < |writable| ==> writable[k]
    ensures FirstDeliverable(order, exclude, writable) == FirstOtherThan(order, exclude)
    decreases |order|
  {
    if order != [] && order[0] == exclude {
      AllWritableDeliversToFirstOther(order[1..], exclude, writable[1..]);
    }
  }

  /**
    The module-level registry of the server: the IDs in insertion order and
    the entry stored under each.
   */
  class Registry {
    var order: seq<string>
    var entries: map<string, Peer>

    ghost predicate Valid()
      reads this
    {
      Consistent(order, entries)
    }

    constructor ()
      ensures Valid() && order == [] && entries == map[]
    {
      order := [];
      entries := map[];
    }

    /** The connections the registry refers to. */
    ghost function Handles(): set<Handle>
      reads this
    {
      set id | id in entries :: entries[id].handle
    }

    /** The writable flag of each listed entry's connection, position by position. */
    ghost function WritableFlags(ids: seq<string>): (flags: seq<bool>)
      requires forall id :: id in ids ==> id in entries
      reads this, Handles()
      ensures |flags| == |ids|
      ensures forall k :: 0 <= k < |ids| ==> flags[k] == entries[ids[k]].handle.writable
      decreases |ids|
    {
      if ids == [] then []
      else
        assert entries[ids[0]].handle in Handles();
        [entries[ids[0]].handle.writable] + WritableFlags(ids[1..])
    }

    /**
      Stores `peer` under `id`: a new ID is appended to the order, an existing
      one is overwritten in place; no other entry changes.
     */
    method Put(id: string, peer: Peer)
      requires Valid()
      modifies this
      ensures Valid()
      ensures entries == old(entries)[id := peer]
      ensures order == InsertionOrder(old(order), id)
    {
      order := InsertionOrder(order, id);
      entries := entries[id := peer];
    }
  }
}

=== FILE: scenarios.dfy ===
/**
  Whole exchanges between the clients and the server: what the server does
  with each request exactly as the clients build it, and runs of several
  requests, stated for any client IDs, addresses, ports and chat text.
 */
module Scenarios {
  import opened Text
  import opened Wire
  import opened Peers
  import opened Server

  /** A header value a client can send: non-empty and without a carriage return. */
  predicate Field(s: string)
  {
    s != "" && '\r' !in s
  }

  /** The server receives a client's REGISTER request: the client is stored and gets a REGACK. */
  method Register(reg: Registry, own: Handle, id: string, ip: string, port: nat) returns (out: Outcome)
    requires reg.Valid() && Field(id) && Field(ip)
    modifies reg, reg.Handles()
    ensures reg.Valid() && reg.Handles() <= old(reg.Handles()) + {own}
    ensures out == Reply(RegAckOk(id, ip, Decimal(port)))
    ensures reg.entries == old(reg.entries)[id := Peer(ip, port, own)]
    ensures reg.order == InsertionOrder(old(reg.order), id)
    ensures Untouched(old(reg.Handles()))
  {
    FreeOfCR(id);
    FreeOfCR(ip);
    RegisterRequestDecodes(id, ip, port);
    var message := RegisterRequest(id, ip, port);
    ghost var headers := map["clientID" := id, "IP" := ip, "Port" := Decimal(port)];
    assert RequestType(message) == "REGISTER" && MessageHeaders(message) == headers;
    assert Stores(headers) && DecimalValue(headers["Port"]) == port;
    out := Dispatch(reg, own, message, reg.Handles());
  }

  /** The server receives a client's BRIDGE request. */
  method Bridge(reg: Registry, own: Handle, id: string) returns (out: Outcome)
    requires reg.Valid() && Field(id)
    modifies reg, reg.Handles()
    ensures reg.Valid() && RegistryUnchanged(reg) && Untouched(old(reg.Handles()))
    ensures out == Reply(BridgeReply(reg.order, reg.entries, map["clientID" := id]))
  {
    FreeOfCR(id);
    BridgeRequestDecodes(id);
    var message := BridgeRequest(id);
    assert RequestType(message) == "BRIDGE" && MessageHeaders(message) == map["clientID" := id];
    out := Dispatch(reg, own, message, reg.Handles());
  }

  /** The server receives a client's CHAT request. */
  method Chat(reg: Registry, own: Handle, id: string, text: string) returns (out: Outcome)
    requires reg.Valid() && Field(id) && Field(text)
    modifies reg, reg.Handles()
    ensures reg.Valid() && RegistryUnchanged(reg)
    ensures out == Reply(ChatReply(reg.order, old(reg.WritableFlags(reg.order)), map["clientID" := id, "message" := text]))
    ensures Relayed(old(reg.Handles()), Recipient(reg.order, reg.entries, id, old(reg.WritableFlags(reg.order))), ChatMessage(id, text))
  {
    FreeOfCR(id);
    FreeOfCR(text);
    ChatMessageDecodes(id, text);
    var message := ChatMessage(id, text);
    ghost var headers := map["clientID" := id, "message" := text];
    assert RequestType(message) == "CHAT" && MessageHeaders(message) == headers;
    assert ChatComplete(headers) && RelayedMessage(headers) == message;
    out := Dispatch(reg, own, message, reg.Handles());
  }

  /**
    With two clients registered, `a` first, a BRIDGE from `b` names `a`
    together with the address `a` registered.
   */
  lemma BridgeNamesOther(a: string, b: string, entries: map<string, Peer>)
    requires a != b && b != "" && Consistent([a, b], entries)
    ensures BridgeReply([a, b], entries, map["clientID" := b]) == BridgeAck(a, entries[a].ip, entries[a].port)
  {
    var order, headers := [a, b], map["clientID" := b];
    assert Present(headers, "clientID");
    assert order[0] != b;
    var reply := BridgeReply(order, entries, headers);
    assert reply != BridgeAckEmpty;
    var j :| FirstOtherThan(order, b) == Some(j) && reply == BridgeAck(order[j], entries[order[j]].ip, entries[order[j]].port);
  }

  /**
    With two clients registered, `a` first, a CHAT from `b` is delivered to
    `a` exactly when the connection of `a` is still writable, and otherwise
    finds no peer.
   */
  lemma ChatReachesOther(a: string, b: string, entries: map<string, Peer>, wa: bool, wb: bool, text: string)
    requires a != b && b != "" && text != "" && a in entries && b in entries
    ensures ChatReply([a, b], [wa, wb], map["clientID" := b, "message" := text]) ==
      if wa then ChatAckDelivered else ChatAckNoPeers
    ensures Recipient([a, b], entries, b, [wa, wb]) == if wa then Some(entries[a].handle) else None
  {
    var order, flags := [a, b], [wa, wb];
    var headers := map["clientID" := b, "message" := text];
    assert ChatComplete(headers);
    if wa {
      FirstDeliverableAt(order, b, flags, 0);
    } else {
      assert forall k :: 0 <= k < |order| ==> order[k] == b || !flags[k];
    }
  }

  /**
    One message of a session, handled in the contents `c` while the open
    connections are those `w` marks: it is not empty, it takes the contents
    to `d`, it is answered with `reply`, and `relay` is what the session's
    own connection `own` receives as a relay meanwhile.
   */
  ghost predicate StepAt(c: Contents, d: Contents, w: map<Handle, bool>, message: string, own: Handle, reply: string, relay: seq<string>)
  {
    Consistent(c.order, c.entries) && message != "" && Stored(c, message, own) == d &&
    Response(c.order, c.entries, FlagsIn(c.order, c.entries, w), message) == Reply(reply) &&
    relay == if RelayTarget(c.order, c.entries, FlagsIn(c.order, c.entries, w), message) == Some(own) then [RelayData(message)] else []
  }

  /**
    The k-th message of a session, handled as StepAt says in the contents
    `c` that the messages before it left: it is answered with `reply`, the
    session's own connection receives `relay` meanwhile, and it leaves the
    contents `d` for the messages after it.
   */
  lemma AnsweredNext(c0: Contents, w: map<Handle, bool>, inbox: seq<string>, k: nat, own: Handle,
                     c: Contents, d: Contents, reply: string, relay: seq<string>)
    requires Consistent(c0.order, c0.entries) && k < |inbox| && StoredAll(c0, inbox, k, own) == c
    requires StepAt(c, d, w, inbox[k], own, reply, relay)
    ensures inbox[k] != "" && !Aborts(inbox[k])
    ensures ResponseAt(c0, w, inbox, k, own) == Reply(reply) && RelayAt(c0, w, inbox, k, own, own) == relay
    ensures StoredAll(c0, inbox, k + 1, own) == d
  {
  }

  /**
    A client's REGISTER, received while the registry holds `c`, whatever the
    writable flags: it is answered with a REGACK, stores the client on the
    connection `own` and relays nothing.
   */
  lemma RegisterStep(c: Contents, id: string, ip: string, port: nat, own: Handle, w: map<Handle, bool>)
    requires Field(id) && Field(ip) && Consistent(c.order, c.entries)
    ensures StepAt(c, Contents(InsertionOrder(c.order, id), c.entries[id := Peer(ip, port, own)]), w,
                   RegisterRequest(id, ip, port), own, RegAckOk(id, ip, Decimal(port)), [])
  {
    FreeOfCR(id);
    FreeOfCR(ip);
    RegisterRequestDecodes(id, ip, port);
    var headers := map["clientID" := id, "IP" := ip, "Port" := Decimal(port)];
    assert Stores(headers) && DecimalValue(headers["Port"]) == port;
  }

  /** A client's BRIDGE, received while the registry holds `c`: answered by BridgeReply, storing and relaying nothing. */
  lemma BridgeStep(c: Contents, id: string, own: Handle, w: map<Handle, bool>)
    requires Field(id) && Consistent(c.order, c.entries)
    ensures StepAt(c, c, w, BridgeRequest(id), own, BridgeReply(c.order, c.entries, map["clientID" := id]), [])
  {
    FreeOfCR(id);
    BridgeRequestDecodes(id);
  }

  /**
    A client's CHAT, received while the registry holds `c` and the open
    connections are those `w` marks: answered by ChatReply, storing
    nothing, and relayed unchanged to its Recipient, so that the sender's
    own connection receives it exactly when it is that Recipient.
   */
  lemma ChatStep(c: Contents, id: string, text: string, own: Handle, w: map<Handle, bool>)
    requires Field(id) && Field(text) && Consistent(c.order, c.entries)
    ensures StepAt(c, c, w, ChatMessage(id, text), own,
                   ChatReply(c.order, FlagsIn(c.order, c.entries, w), map["clientID" := id, "message" := text]),
                   if Recipient(c.order, c.entries, id, FlagsIn(c.order, c.entries, w)) == Some(own) then [ChatMessage(id, text)] else [])
  {
    FreeOfCR(id);
    FreeOfCR(text);
    ChatMessageDecodes(id, text);
    var headers := map["clientID" := id, "message" := text];
    assert ChatComplete(headers) && RelayedMessage(headers) == ChatMessage(id, text);
  }

  /**
    The first session of a fresh server: client `a` sends its REGISTER and
    then closes its side, which the server reads as an empty message. The
    client gets its REGACK, the registry holds `a` alone, and the server
    closes the connection.
   */
  method FirstSession(a: string, ipA: string, portA: nat) returns (reg: Registry, conn: Handle)
    requires Field(a) && Field(ipA)
    ensures fresh(reg) && fresh(conn)
    ensures reg.Valid() && reg.order == [a] && reg.entries == map[a := Peer(ipA, portA, conn)]
    ensures !conn.writable && conn.outbox == [RegAckOk(a, ipA, Decimal(portA))]
  {
    reg := new Registry();
    conn := new Handle();
    var inbox := [RegisterRequest(a, ipA, portA), ""];
    ghost var c0, w := Contents([], map[]), Writability({conn});
    ghost var expected := [RegAckOk(a, ipA, Decimal(portA))];
    assert inbox[0] == RegisterRequest(a, ipA, portA) && expected[0] == RegAckOk(a, ipA, Decimal(portA));
    RegisterStep(c0, a, ipA, portA, conn, w);
    ghost var c1 := Contents(InsertionOrder([], a), map[a := Peer(ipA, portA, conn)]);
    assert c1.order == [a];
    AnsweredNext(c0, w, inbox, 0, conn, c0, c1, expected[0], []);
    assert reg.Handles() + {conn} == {conn};
    var replies;
    ghost var relayed, received;
    replies, relayed, received := Session(reg, conn, inbox);
    SessionAnswersUpTo(c0, w, inbox, 1, conn, Handled(inbox, replies), replies, relayed, received, expected, [[]]);
    assert Transcript([], relayed, replies, 1) == [] + relayed[0] + [replies[0]];
  }

  /**
    With `a` and `b` registered, in that order, `b` asks for a peer and then
    chats: BRIDGE names `a` as registered, and the text is relayed to the
    connection of `a` and acknowledged as delivered exactly when that
    connection was still writable; otherwise no connection receives it.
   */
  method BridgeThenChat(reg: Registry, own: Handle, a: string, b: string, text: string)
    returns (bridged: Outcome, chatted: Outcome)
    requires reg.Valid() && reg.order == [a, b] && a != b && Field(b) && Field(text)
    modifies reg, reg.Handles()
    ensures RegistryUnchanged(reg)
    ensures bridged == Reply(BridgeAck(a, reg.entries[a].ip, reg.entries[a].port))
    ensures chatted == Reply(if old(reg.entries[a].handle.writable) then ChatAckDelivered else ChatAckNoPeers)
    ensures Relayed(old(reg.Handles()), if old(reg.entries[a].handle.writable) then Some(reg.entries[a].handle) else None,
      ChatMessage(b, text))
  {
    var entries := reg.entries;
    assert a in reg.order && b in reg.order;
    bridged := Bridge(reg, own, b);
    BridgeNamesOther(a, b, entries);
    ghost var flags := reg.WritableFlags(reg.order);
    assert flags == [flags[0], flags[1]];
    ChatReachesOther(a, b, entries, flags[0], flags[1], text);
    chatted := Chat(reg, own, b, text);
  }

  /**
    The server serves one connection at a time and never prunes its
    registry. After the session of `a` has ended, `b` connects and
    registers: a BRIDGE from `b` still names `a`, but `b`'s chat text
    reaches nobody and is answered "No peers available".
   */
  method StalePeer(a: string, ipA: string, portA: nat, b: string, ipB: string, portB: nat, text: string)
    returns (bridged: Outcome, chatted: Outcome, receivedByA: seq<string>)
    requires Field(a) && Field(ipA) && Field(b) && Field(ipB) && Field(text) && a != b
    ensures bridged == Reply(BridgeAck(a, ipA, portA))
    ensures chatted == Reply(ChatAckNoPeers)
    ensures receivedByA == [RegAckOk(a, ipA, Decimal(portA))]
  {
    var reg, first := FirstSession(a, ipA, portA);
    var second := new Handle();
    var _ := Register(reg, second, b, ipB, portB);
    assert reg.order == [a] + [b];
    assert reg.entries[a] == Peer(ipA, portA, first) && first in reg.Handles();
    bridged, chatted := BridgeThenChat(reg, second, a, b, text);
    receivedByA := first.outbox;
  }

  /** While every listed ID is registered on the one connection `conn`, and `conn` is open, every flag the handlers read is set. */
  lemma {:induction false} FlagsAllOpen(ids: seq<string>, entries: map<string, Peer>, conn: Handle)
    requires forall k :: 0 <= k < |ids| ==> ids[k] in entries && entries[ids[k]].handle == conn
    ensures forall k :: 0 <= k < |ids| ==> FlagsIn(ids, entries, map[conn := true])[k]
  {
    forall k | 0 <= k < |ids|
      ensures FlagsIn(ids, entries, map[conn := true])[k]
    {
      FlagsInAt(ids, entries, map[conn := true], k);
    }
  }

  /**
    With `a` and then `b` registered on the one open connection `conn`, a
    BRIDGE from `b` names `a`, and a CHAT from `b` is delivered, to `conn`.
   */
  lemma TwoOnOneReplies(a: string, ipA: string, portA: nat, b: string, ipB: string, portB: nat, text: string,
                        conn: Handle, c: Contents, w: map<Handle, bool>)
    requires a != b && Field(b) && Field(text)
    requires c == Contents([a, b], map[a := Peer(ipA, portA, conn), b := Peer(ipB, portB, conn)]) && w == map[conn := true]
    ensures BridgeReply(c.order, c.entries, map["clientID" := b]) == BridgeAck(a, ipA, portA)
    ensures ChatReply(c.order, FlagsIn(c.order, c.entries, w), map["clientID" := b, "message" := text]) == ChatAckDelivered
    ensures Recipient(c.order, c.entries, b, FlagsIn(c.order, c.entries, w)) == Some(conn)
  {
    FlagsAllOpen(c.order, c.entries, conn);
    var flags := FlagsIn(c.order, c.entries, w);
    assert flags == [true, true];
    BridgeNamesOther(a, b, c.entries);
    ChatReachesOther(a, b, c.entries, true, true, text);
  }

  /**
    The four requests of a client that registers as `a`, then as `b`, asks
    for a peer as `b` and chats as `b`, all on one connection `conn` of a
    fresh server, each in the contents the ones before it left: two
    REGACKs, a BRIDGEACK naming `a`, and a CHAT that is relayed back to
    `conn` and acknowledged as delivered.
   */
  lemma SelfRelaySteps(a: string, ipA: string, portA: nat, b: string, ipB: string, portB: nat, text: string,
                       conn: Handle, w: map<Handle, bool>, c0: Contents, c1: Contents, c2: Contents)
    requires Field(a) && Field(ipA) && Field(b) && Field(ipB) && Field(text) && a != b && w == map[conn := true]
    requires c0 == Contents([], map[])
    requires c1 == Contents(InsertionOrder(c0.order, a), c0.entries[a := Peer(ipA, portA, conn)])
    requires c2 == Contents(InsertionOrder(c1.order, b), c1.entries[b := Peer(ipB, portB, conn)])
    ensures StepAt(c0, c1, w, RegisterRequest(a, ipA, portA), conn, RegAckOk(a, ipA, Decimal(portA)), [])
    ensures StepAt(c1, c2, w, RegisterRequest(b, ipB, portB), conn, RegAckOk(b, ipB, Decimal(portB)), [])
    ensures StepAt(c2, c2, w, BridgeRequest(b), conn, BridgeAck(a, ipA, portA), [])
    ensures StepAt(c2, c2, w, ChatMessage(b, text), conn, ChatAckDelivered, [ChatMessage(b, text)])
  {
    RegisterStep(c0, a, ipA, portA, conn, w);
    RegisterStep(c1, b, ipB, portB, conn, w);
    assert c2 == Contents([a, b], map[a := Peer(ipA, portA, conn), b := Peer(ipB, portB, conn)]);
    TwoOnOneReplies(a, ipA, portA, b, ipB, portB, text, conn, c2, w);
    BridgeStep(c2, b, conn, w);
    ChatStep(c2, b, text, conn, w);
  }

  /** Four messages of a session, each answered as AnsweredNext says, gathered into statements about all four. */
  lemma AnsweredFour(c0: Contents, w: map<Handle, bool>, inbox: seq<string>, own: Handle,
                     expected: seq<string>, expectedRelays: seq<seq<string>>)
    requires Consistent(c0.order, c0.entries) && 4 <= |inbox| && |expected| == 4 && |expectedRelays| == 4
    requires inbox[0] != "" && !Aborts(inbox[0]) && inbox[1] != "" && !Aborts(inbox[1])
    requires inbox[2] != "" && !Aborts(inbox[2]) && inbox[3] != "" && !Aborts(inbox[3])
    requires ResponseAt(c0, w, inbox, 0, own) == Reply(expected[0]) && RelayAt(c0, w, inbox, 0, own, own) == expectedRelays[0]
    requires ResponseAt(c0, w, inbox, 1, own) == Reply(expected[1]) && RelayAt(c0, w, inbox, 1, own, own) == expectedRelays[1]
    requires ResponseAt(c0, w, inbox, 2, own) == Reply(expected[2]) && RelayAt(c0, w, inbox, 2, own, own) == expectedRelays[2]
    requires ResponseAt(c0, w, inbox, 3, own) == Reply(expected[3]) && RelayAt(c0, w, inbox, 3, own, own) == expectedRelays[3]
    ensures forall k :: 0 <= k < 4 ==> inbox[k] != "" && !Aborts(inbox[k])
    ensures forall k :: 0 <= k < 4 ==> ResponseAt(c0, w, inbox, k, own) == Reply(expected[k])
    ensures forall k :: 0 <= k < 4 ==> RelayAt(c0, w, inbox, k, own, own) == expectedRelays[k]
  {
    forall k | 0 <= k < 4
      ensures inbox[k] != "" && !Aborts(inbox[k])
      ensures ResponseAt(c0, w, inbox, k, own) == Reply(expected[k])
      ensures RelayAt(c0, w, inbox, k, own, own) == expectedRelays[k]
    {
      if k == 0 {
      } else if k == 1 {
      } else if k == 2 {
      } else {
      }
    }
  }

  /**
    The session of SelfRelay, message by message: the first four messages
    are answered, with the expected replies and relays.
   */
  lemma SelfRelayResponses(a: string, ipA: string, portA: nat, b: string, ipB: string, portB: nat, text: string, conn: Handle,
                           inbox: seq<string>, w: map<Handle, bool>, expected: seq<string>, expectedRelays: seq<seq<string>>)
    requires Field(a) && Field(ipA) && Field(b) && Field(ipB) && Field(text) && a != b
    requires inbox == [RegisterRequest(a, ipA, portA), RegisterRequest(b, ipB, portB), BridgeRequest(b), ChatMessage(b, text), ""]
    requires w == map[conn := true]
    requires expected == [RegAckOk(a, ipA, Decimal(portA)), RegAckOk(b, ipB, Decimal(portB)), BridgeAck(a, ipA, portA), ChatAckDelivered]
    requires expectedRelays == [[], [], [], [ChatMessage(b, text)]]
    ensures forall k :: 0 <= k < 4 ==> inbox[k] != "" && !Aborts(inbox[k])
    ensures forall k :: 0 <= k < 4 ==> ResponseAt(Contents([], map[]), w, inbox, k, conn) == Reply(expected[k])
    ensures forall k :: 0 <= k < 4 ==> RelayAt(Contents([], map[]), w, inbox, k, conn, conn) == expectedRelays[k]
  {
    var c0 := Contents([], map[]);
    var c1 := Contents(InsertionOrder(c0.order, a), c0.entries[a := Peer(ipA, portA, conn)]);
    var c2 := Contents(InsertionOrder(c1.order, b), c1.entries[b := Peer(ipB, portB, conn)]);
    assert inbox[0] == RegisterRequest(a, ipA, portA) && inbox[1] == RegisterRequest(b, ipB, portB);
    assert inbox[2] == BridgeRequest(b) && inbox[3] == ChatMessage(b, text);
    assert expected[0] == RegAckOk(a, ipA, Decimal(portA)) && expected[1] == RegAckOk(b, ipB, Decimal(portB));
    assert expected[2] == BridgeAck(a, ipA, portA) && expected[3] == ChatAckDelivered;
    assert expectedRelays[0] == [] && expectedRelays[1] == [] && expectedRelays[2] == [] && expectedRelays[3] == [ChatMessage(b, text)];
    SelfRelaySteps(a, ipA, portA, b, ipB, portB, text, conn, w, c0, c1, c2);
    AnsweredNext(c0, w, inbox, 0, conn, c0, c1, expected[0], expectedRelays[0]);
    AnsweredNext(c0, w, inbox, 1, conn, c1, c2, expected[1], expectedRelays[1]);
    AnsweredNext(c0, w, inbox, 2, conn, c2, c2, expected[2], expectedRelays[2]);
    AnsweredNext(c0, w, inbox, 3, conn, c2, c2, expected[3], expectedRelays[3]);
    AnsweredFour(c0, w, inbox, conn, expected, expectedRelays);
  }

  /** The outbox of the connection in SelfRelay: each reply, preceded by what was relayed to it meanwhile. */
  lemma SelfRelayTranscript(replies: seq<string>, relayed: seq<seq<string>>, r0: string, r1: string, r2: string, r3: string, chat: string)
    requires replies == [r0, r1, r2, r3] && relayed == [[], [], [], [chat]]
    ensures Transcript([], relayed, replies, |replies|) == [r0, r1, r2, chat, r3]
  {
    assert Transcript([], relayed, replies, 1) == [r0];
    assert Transcript([], relayed, replies, 2) == [r0, r1];
    assert Transcript([], relayed, replies, 3) == [r0, r1, r2];
  }

  /**
    A CHAT is delivered only to a connection that is still open, which for
    this one-at-a-time server means the current one: a client that
    registers as `a` and then as `b` on the same connection, asks for a
    peer and chats as `b` gets both REGACKs, a BRIDGEACK naming `a`, its
    own text relayed as a chat from `b`, and then the delivery
    acknowledgement.
   */
  method SelfRelay(a: string, ipA: string, portA: nat, b: string, ipB: string, portB: nat, text: string)
    returns (replies: seq<string>, conn: Handle)
    requires Field(a) && Field(ipA) && Field(b) && Field(ipB) && Field(text) && a != b
    ensures replies == [RegAckOk(a, ipA, Decimal(portA)), RegAckOk(b, ipB, Decimal(portB)), BridgeAck(a, ipA, portA), ChatAckDelivered]
    ensures !conn.writable
    ensures conn.outbox ==
      [RegAckOk(a, ipA, Decimal(portA)), RegAckOk(b, ipB, Decimal(portB)), BridgeAck(a, ipA, portA), ChatMessage(b, text), ChatAckDelivered]
  {
    var reg := new Registry();
    conn := new Handle();
    var inbox := [RegisterRequest(a, ipA, portA), RegisterRequest(b, ipB, portB), BridgeRequest(b), ChatMessage(b, text), ""];
    ghost var c0, w := Contents([], map[]), Writability({conn});
    ghost var expected := [RegAckOk(a, ipA, Decimal(portA)), RegAckOk(b, ipB, Decimal(portB)), BridgeAck(a, ipA, portA), ChatAckDelivered];
    ghost var expectedRelays: seq<seq<string>> := [[], [], [], [ChatMessage(b, text)]];
    assert w == map[conn := true];
    SelfRelayResponses(a, ipA, portA, b, ipB, portB, text, conn, inbox, w, expected, expectedRelays);
    assert reg.Handles() + {conn} == {conn};
    ghost var relayed, received;
    replies, relayed, received := Session(reg, conn, inbox);
    SessionAnswersUpTo(c0, w, inbox, 4, conn, Handled(inbox, replies), replies, relayed, received, expected, expectedRelays);
    SelfRelayTranscript(replies, relayed, expected[0], expected[1], expected[2], expected[3], ChatMessage(b, text));
  }

  /**
    A client connects to a fresh server, sends one BRIDGE request and closes
    its side, which the server reads as an empty message: with nobody else
    registered it gets the empty BRIDGEACK, and nothing else is written to
    its connection.
   */
  method LoneBridge(id: string) returns (replies: seq<string>, conn: Handle)
    requires Field(id)
    ensures replies == [BridgeAckEmpty] && conn.outbox == [BridgeAckEmpty] && !conn.writable
  {
    var reg := new Registry();
    conn := new Handle();
    var inbox := [BridgeRequest(id), ""];
    ghost var c0, w := Contents([], map[]), Writability({conn});
    assert inbox[0] == BridgeRequest(id);
    BridgeStep(c0, id, conn, w);
    AnsweredNext(c0, w, inbox, 0, conn, c0, c0, BridgeAckEmpty, []);
    assert reg.Handles() + {conn} == {conn};
    ghost var relayed, received;
    replies, relayed, received := Session(reg, conn, inbox);
    SessionAnswersUpTo(c0, w, inbox, 1, conn, Handled(inbox, replies), replies, relayed, received, [BridgeAckEmpty], [[]]);
    assert Transcript([], relayed, replies, 1) == [] + relayed[0] + [replies[0]];
  }

  /**
    A REGISTER whose Port is not a number ends the session at once: no
    reply to it, and the messages after it are never handled.
   */
  method BadPortEndsSession(id: string, ip: string, portText: string, next: string)
    returns (replies: seq<string>, conn: Handle)
    requires Field(id) && Field(ip) && Field(portText) && !IsDigits(portText)
    ensures replies == [] && conn.outbox == [] && !conn.writable
  {
    var reg := new Registry();
    conn := new Handle();
    FreeOfCR(id);
    FreeOfCR(ip);
    FreeOfCR(portText);
    RegisterMessageDecodes(id, ip, portText);
    var message := RegisterMessage(id, ip, portText);
    assert Aborts(message);
    ghost var relayed, received;
    replies, relayed, received := Session(reg, conn, [message, next]);
  }

  /** The server echoes the port text of a well-formed REGISTER exactly as it came. */
  lemma PortTextEchoed(id: string, ip: string, portText: string)
    requires Field(id) && Field(ip) && IsDigits(portText)
    ensures RegisterReply(MessageHeaders(RegisterMessage(id, ip, portText))) == Reply(RegAckOk(id, ip, portText))
  {
    FreeOfCR(id);
    FreeOfCR(ip);
    FreeOfCR(portText);
    RegisterMessageDecodes(id, ip, portText);
  }

  /**
    The server stores the value of the registered port text, and a BRIDGEACK
    naming the client prints that value: it gives back the registered text
    exactly when the text has no leading zero.
   */
  lemma PortTextNormalised(id: string, ip: string, portText: string)
    requires Field(id) && Field(ip) && IsDigits(portText)
    ensures "Port" in MessageHeaders(BridgeAck(id, ip, DecimalValue(portText)))
    ensures MessageHeaders(BridgeAck(id, ip, DecimalValue(portText)))["Port"] == portText <==>
      portText[0] != '0' || portText == "0"
  {
    FreeOfCR(id);
    FreeOfCR(ip);
    BridgeAckDecodes(id, ip, DecimalValue(portText));
    DecimalOfValue(portText);
  }
}

=== FILE: server.dfy ===
/**
  The server's protocol engine: the REGISTER, BRIDGE and CHAT handlers over
  the registry, the dispatch of one received message, and the receive loop
  of one client session.
 */
module Server {
  import opened Text
  import opened Wire
  import opened Peers

  /**
    What handling one message leads to: a reply to send back, or an
    exception (an unparsable Port) that ends the session without a reply.
   */
  datatype Outcome = Reply(text: string) | Abort

  /** The header lookup succeeds with a non-empty value (a missing key and an empty value are both falsy). */
  predicate Present(headers: map<string, string>, key: string)
  {
    key in headers && headers[key] != ""
  }

  predicate RegisterComplete(headers: map<string, string>)
  {
    Present(headers, "clientID") && Present(headers, "IP") && Present(headers, "Port")
  }

  /** A REGISTER that gets as far as storing an entry: complete, with a Port that parses as an integer. */
  predicate Stores(headers: map<string, string>)
  {
    RegisterComplete(headers) && IsDigits(headers["Port"])
  }

  lemma RegAckOkIsNotError(id: string, ip: string, portText: string)
    ensures RegAckOk(id, ip, portText) != RegAckError
  {
    assert RegAckOk(id, ip, portText)[8] == 'c';
    assert RegAckError[8] == 'S';
  }

  /**
    The outcome of REGISTER: the error reply exactly when a field is missing
    or empty, an abort exactly when the fields are there but Port is not an
    integer, and otherwise a REGACK that echoes the Port text as received.
   */
  function RegisterReply(headers: map<string, string>): (out: Outcome)
    ensures out == Reply(RegAckError) <==> !RegisterComplete(headers)
    ensures out == Abort <==> RegisterComplete(headers) && !IsDigits(headers["Port"])
    ensures Stores(headers) ==>
      out == Reply(RegAckOk(headers["clientID"], headers["IP"], headers["Port"]))
  {
    if !RegisterComplete(headers) then Reply(RegAckError)
    else if !IsDigits(headers["Port"]) then Abort
    else
      RegAckOkIsNotError(headers["clientID"], headers["IP"], headers["Port"]);
      Reply(RegAckOk(headers["clientID"], headers["IP"], headers["Port"]))
  }

  /**
    The registry change REGISTER makes: when it stores, the client's ID maps
    to its announced IP, the integer value of its Port and the session's own
    connection, at the ID's original position if it was already there;
    otherwise nothing changes.
   */
  twostate predicate RegisterEffect(reg: Registry, headers: map<string, string>, own: Handle)
    reads reg
  {
    if Stores(headers) then
      reg.entries == old(reg.entries)[headers["clientID"] := Peer(headers["IP"], DecimalValue(headers["Port"]), own)] &&
      reg.order == InsertionOrder(old(reg.order), headers["clientID"])
    else
      reg.entries == old(reg.entries) && reg.order == old(reg.order)
  }

  /** Handles REGISTER received on the connection `own`. */
  method HandleRegister(reg: Registry, headers: map<string, string>, own: Handle) returns (out: Outcome)
    requires reg.Valid()
    modifies reg
    ensures reg.Valid()
    ensures out == RegisterReply(headers)
    ensures RegisterEffect(reg, headers, own)
    ensures reg.Handles() <= old(reg.Handles()) + {own}
  {
    if !RegisterComplete(headers) {
      return Reply(RegAckError);
    }
    var id, ip, port := headers["clientID"], headers["IP"], headers["Port"];
    if !IsDigits(port) {
      return Abort;
    }
    reg.Put(id, Peer(ip, DecimalValue(port), own));
    out := Reply(RegAckOk(id, ip, port));
  }

  lemma BridgeAckIsNotEmpty(id: string, ip: string, port: nat)
    ensures BridgeAck(id, ip, port) != BridgeAckEmpty
  {
    assert BridgeAck(id, ip, port)[20] == ' ';
    assert BridgeAckEmpty[20] == '\r';
  }

  /**
    The BRIDGE reply: the empty BRIDGEACK exactly when clientID is missing or
    empty or every registered ID equals it; otherwise the first registered
    entry, in insertion order, whose ID differs from the requester's, with
    its port printed from the stored integer.
   */
  function BridgeReply(order: seq<string>, entries: map<string, Peer>, headers: map<string, string>): (reply: string)
    requires Consistent(order, entries)
    ensures reply == BridgeAckEmpty <==>
      !Present(headers, "clientID") || forall k :: 0 <= k < |order| ==> order[k] == headers["clientID"]
    ensures reply != BridgeAckEmpty ==>
      exists j :: 0 <= j < |order| && order[j] != headers["clientID"] &&
        (forall k :: 0 <= k < j ==> order[k] == headers["clientID"]) &&
        reply == BridgeAck(order[j], entries[order[j]].ip, entries[order[j]].port)
  {
    if !Present(headers, "clientID") then BridgeAckEmpty
    else
      match FirstOtherThan(order, headers["clientID"])
      case None => BridgeAckEmpty
      case Some(j) =>
        BridgeAckIsNotEmpty(order[j], entries[order[j]].ip, entries[order[j]].port);
        BridgeAck(order[j], entries[order[j]].ip, entries[order[j]].port)
  }

  predicate ChatComplete(headers: map<string, string>)
  {
    Present(headers, "clientID") && Present(headers, "message")
  }

  lemma ChatAcksDistinct()
    ensures ChatAckError != ChatAckDelivered && ChatAckError != ChatAckNoPeers && ChatAckDelivered != ChatAckNoPeers
  {
    assert ChatAckError[17] == 'e';
    assert ChatAckDelivered[17] == 'd';
    assert ChatAckNoPeers[17] == 'n';
  }

  /**
    The CHAT reply, given the writable flag of each registered connection:
    the error reply exactly when clientID or message is missing or empty,
    "delivered" exactly when some peer other than the sender has a writable
    connection, and "no peers available" exactly when none has.
   */
  function ChatReply(order: seq<string>, writable: seq<bool>, headers: map<string, string>): (reply: string)
    requires |writable| == |order|
    ensures reply == ChatAckError <==> !ChatComplete(headers)
    ensures reply == ChatAckDelivered <==>
      ChatComplete(headers) && exists k :: 0 <= k < |order| && order[k] != headers["clientID"] && writable[k]
    ensures reply == ChatAckNoPeers <==>
      ChatComplete(headers) && forall k :: 0 <= k < |order| ==> order[k] == headers["clientID"] || !writable[k]
  {
    ChatAcksDistinct();
    if !ChatComplete(headers) then ChatAckError
    else if FirstDeliverable(order, headers["clientID"], writable).Some? then ChatAckDelivered
    else ChatAckNoPeers
  }

  /**
    The connection a CHAT from `sender` is written to, given the writable
    flag of each registered connection: that of the first registered peer, in
    insertion order, other than the sender and with a writable connection.
   */
  function Recipient(order: seq<string>, entries: map<string, Peer>, sender: string, writable: seq<bool>): (h: Option<Handle>)
    requires (forall id :: id in order ==> id in entries) && |writable| == |order|
    ensures h.None? <==> forall k :: 0 <= k < |order| ==> order[k] == sender || !writable[k]
    ensures h.Some? ==> exists j :: 0 <= j < |order| && order[j] != sender && writable[j] && h.value == entries[order[j]].handle &&
                                    (forall k :: 0 <= k < j ==> order[k] == sender || !writable[k])
  {
    match FirstDeliverable(order, sender, writable)
    case None => None
    case Some(j) => Some(entries[order[j]].handle)
  }

  /** No connection in `handles` was written to or closed. */
  twostate predicate Untouched(handles: set<Handle>)
    reads handles
  {
    forall h :: h in handles ==> h.writable == old(h.writable) && h.outbox == old(h.outbox)
  }

  /**
    The connections `handles` after a relay of `data` to `recipient`: the
    recipient, and only it, received `data` once; no connection was closed.
   */
  twostate predicate Relayed(handles: set<Handle>, recipient: Option<Handle>, data: string)
    reads handles
  {
    forall h :: h in handles ==>
      h.writable == old(h.writable) &&
      h.outbox == if recipient == Some(h) then old(h.outbox) + [data] else old(h.outbox)
  }

  /** The bytes relayed for a complete CHAT request. */
  function RelayedMessage(headers: map<string, string>): string
    requires ChatComplete(headers)
  {
    ChatMessage(headers["clientID"], headers["message"])
  }

  /** The relayed bytes are a CHAT that decodes back to the sender's clientID and text. */
  lemma RelayedMessageDecodes(headers: map<string, string>)
    requires ChatComplete(headers) && Free(headers["clientID"], CRLF) && Free(headers["message"], CRLF)
    ensures RequestType(RelayedMessage(headers)) == "CHAT"
    ensures MessageHeaders(RelayedMessage(headers)) == map["clientID" := headers["clientID"], "message" := headers["message"]]
  {
    ChatMessageDecodes(headers["clientID"], headers["message"]);
  }

  /**
    The relay loop of CHAT: tries the peers other than `sender` in insertion
    order, skipping those whose write fails, and stops at the first write
    that succeeds. `order` and `entries` are the registry's contents,
    `handles` its connections and `flags` their writable flags on entry.
   */
  method Forward(order: seq<string>, entries: map<string, Peer>, ghost handles: set<Handle>, ghost flags: seq<bool>,
                 sender: string, data: string) returns (forwarded: bool)
    requires forall id :: id in order ==> id in entries && entries[id].handle in handles
    requires |flags| == |order| && forall k :: 0 <= k < |order| ==> flags[k] == entries[order[k]].handle.writable
    modifies handles
    ensures forwarded <==> FirstDeliverable(order, sender, flags).Some?
    ensures Relayed(handles, Recipient(order, entries, sender, flags), data)
  {
    ghost var recipient := Recipient(order, entries, sender, flags);
    forwarded := false;
    var i := 0;
    while i < |order|
      invariant 0 <= i <= |order|
      invariant forall k :: 0 <= k < i ==> order[k] == sender || !flags[k]
      invariant Untouched(handles)
    {
      var peerId := order[i];
      if peerId != sender {
        var peer := entries[peerId];
        assert flags[i] == peer.handle.writable;
        var ok := peer.handle.Write(data);
        if ok {
          FirstDeliverableAt(order, sender, flags, i);
          assert Relayed(handles, recipient, data) by {
            assert recipient == Some(peer.handle);
          }
          forwarded := true;
          break;
        }
        assert !flags[i];
      }
      assert forall k :: 0 <= k < i + 1 ==> order[k] == sender || !flags[k];
      i := i + 1;
    }
    if !forwarded {
      assert Relayed(handles, recipient, data) by {
        assert FirstDeliverable(order, sender, flags) == None;
      }
    }
  }

  /** Handles CHAT: checks the request, relays it, and reports whether a peer got it. */
  method HandleChat(reg: Registry, headers: map<string, string>, ghost others: set<Handle>) returns (reply: string)
    requires reg.Valid() && reg.Handles() <= others
    modifies others
    ensures reply == ChatReply(reg.order, old(reg.WritableFlags(reg.order)), headers)
    ensures !ChatComplete(headers) ==> Untouched(others)
    ensures ChatComplete(headers) ==>
      Relayed(others, Recipient(reg.order, reg.entries, headers["clientID"], old(reg.WritableFlags(reg.order))),
        RelayedMessage(headers))
  {
    if !Present(headers, "clientID") || !Present(headers, "message") {
      return ChatAckError;
    }
    var sender, message := headers["clientID"], headers["message"];
    var forwarded := Forward(reg.order, reg.entries, others, reg.WritableFlags(reg.order), sender, ChatMessage(sender, message));
    if forwarded {
      reply := ChatAckDelivered;
    } else {
      reply := ChatAckNoPeers;
    }
  }

  /** The registry is as it was. */
  twostate predicate RegistryUnchanged(reg: Registry)
    reads reg
  {
    reg.order == old(reg.order) && reg.entries == old(reg.entries)
  }

  /**
    A REGISTER with every field present but a Port that is not an integer:
    handling it raises, and the session ends without a reply.
   */
  predicate Aborts(message: string)
  {
    var headers := MessageHeaders(message);
    RequestType(message) == "REGISTER" && RegisterComplete(headers) && !IsDigits(headers["Port"])
  }

  /** A message aborts exactly when it is a REGISTER whose handler raises rather than replies. */
  lemma AbortsIffRegisterRaises(message: string)
    ensures Aborts(message) <==> RequestType(message) == "REGISTER" && RegisterReply(MessageHeaders(message)) == Abort
  {
  }

  /**
    The outcome of one non-empty message received while the registry holds
    `order` and `entries` and their connections have the writable flags
    `flags`: line 0 selects the handler and an unknown type gets the error
    reply, so every message is answered except a REGISTER that aborts.
   */
  function Response(order: seq<string>, entries: map<string, Peer>, flags: seq<bool>, message: string): (out: Outcome)
    requires Consistent(order, entries) && |flags| == |order|
    ensures out.Abort? <==> Aborts(message)
  {
    var requestType, headers := RequestType(message), MessageHeaders(message);
    if requestType == "REGISTER" then RegisterReply(headers)
    else if requestType == "BRIDGE" then Reply(BridgeReply(order, entries, headers))
    else if requestType == "CHAT" then Reply(ChatReply(order, flags, headers))
    else Reply(UnknownTypeReply)
  }

  /**
    The connection, if any, that handling `message` relays to: for a
    complete CHAT, the recipient of its sender's message, which is a
    registered connection that was writable.
   */
  function RelayTarget(order: seq<string>, entries: map<string, Peer>, flags: seq<bool>, message: string): (h: Option<Handle>)
    requires (forall id :: id in order ==> id in entries) && |flags| == |order|
    ensures h.Some? ==> RequestType(message) == "CHAT" && ChatComplete(MessageHeaders(message))
    ensures h.Some? ==> exists j :: 0 <= j < |order| && flags[j] && h.value == entries[order[j]].handle
    ensures h.Some? ==> exists id :: id in entries && h.value == entries[id].handle
  {
    var headers := MessageHeaders(message);
    if RequestType(message) == "CHAT" && ChatComplete(headers) then Recipient(order, entries, headers["clientID"], flags)
    else None
  }

  /** The bytes relayed for `message` when it is a complete CHAT. */
  function RelayData(message: string): string
  {
    var headers := MessageHeaders(message);
    if ChatComplete(headers) then RelayedMessage(headers) else ""
  }

  /**
    One pass of the session loop on a non-empty message: line 0 selects the
    handler, the rest of the message is decoded into headers, and exactly one
    outcome results.
   */
  method Dispatch(reg: Registry, own: Handle, message: string, ghost others: set<Handle>) returns (out: Outcome)
    requires reg.Valid() && reg.Handles() <= others
    modifies reg, others
    ensures reg.Valid()
    ensures reg.Handles() <= old(reg.Handles()) + {own}
    ensures own.writable == old(own.writable)
    ensures RequestType(message) == "REGISTER" ==>
      out == RegisterReply(MessageHeaders(message)) && RegisterEffect(reg, MessageHeaders(message), own) &&
      Untouched(others) && own.outbox == old(own.outbox)
    ensures RequestType(message) == "BRIDGE" ==>
      out == Reply(BridgeReply(reg.order, reg.entries, MessageHeaders(message))) &&
      RegistryUnchanged(reg) && Untouched(others) && own.outbox == old(own.outbox)
    ensures RequestType(message) == "CHAT" ==>
      out == Reply(ChatReply(old(reg.order), old(reg.WritableFlags(reg.order)), MessageHeaders(message))) &&
      RegistryUnchanged(reg) &&
      Relayed(others, RelayTarget(old(reg.order), old(reg.entries), old(reg.WritableFlags(reg.order)), message),
        RelayData(message)) &&
      own.outbox ==
        old(own.outbox) +
        if RelayTarget(old(reg.order), old(reg.entries), old(reg.WritableFlags(reg.order)), message) == Some(own)
        then [RelayData(message)] else []
    ensures RequestType(message) !in {"REGISTER", "BRIDGE", "CHAT"} ==>
      out == Reply(UnknownTypeReply) && RegistryUnchanged(reg) && Untouched(others) &&
      own.outbox == old(own.outbox)
  {
    var lines := Split(message, CRLF);
    var requestType := lines[0];
    var headers := ParseHeaders(message);
    if requestType == "REGISTER" {
      out := HandleRegister(reg, headers, own);
    } else if requestType == "BRIDGE" {
      out := Reply(BridgeReply(reg.order, reg.entries, headers));
    } else if requestType == "CHAT" {
      assert reg.Handles() == old(reg.Handles());
      assert reg.WritableFlags(reg.order) == old(reg.WritableFlags(reg.order));
      ghost var order, entries := reg.order, reg.entries;
      ghost var target := RelayTarget(order, entries, reg.WritableFlags(reg.order), message);
      TargetRegistered(reg, own, message);
      var reply := HandleChat(reg, headers, others);
      assert reg.order == order && reg.entries == entries;
      assert Relayed(others, target, RelayData(message));
      if own in others {
        assert own.outbox == old(own.outbox) + if target == Some(own) then [RelayData(message)] else [];
      }
      out := Reply(reply);
    } else {
      out := Reply(UnknownTypeReply);
    }
  }

  /** A connection a message is relayed to is one the registry holds. */
  lemma TargetRegistered(reg: Registry, h: Handle, message: string)
    requires reg.Valid()
    ensures RelayTarget(reg.order, reg.entries, reg.WritableFlags(reg.order), message) == Some(h) ==> h in reg.Handles()
  {
  }

  /**
    From `before` to `after` no ID was dropped, and every entry that was
    added or replaced refers to the connection `own`.
   */
  predicate EntriesGrowBy(before: map<string, Peer>, after: map<string, Peer>, own: Handle)
  {
    (forall id :: id in before ==> id in after) &&
    forall id :: id in after && (id !in before || after[id] != before[id]) ==> after[id].handle == own
  }

  lemma StoreGrows(entries: map<string, Peer>, id: string, peer: Peer, own: Handle)
    requires peer.handle == own
    ensures EntriesGrowBy(entries, entries[id := peer], own)
  {
  }

  lemma EntriesGrowTransitive(e0: map<string, Peer>, e1: map<string, Peer>, e2: map<string, Peer>, own: Handle)
    requires EntriesGrowBy(e0, e1, own) && EntriesGrowBy(e1, e2, own)
    ensures EntriesGrowBy(e0, e2, own)
  {
  }

  /**
    Dispatch, stated independently of the request type: the outcome is
    Response of the registry as it was, the registry changes only as a
    storing REGISTER changes it, and the only connection written to is the
    relay target, which receives the relayed CHAT once.
   */
  method Process(reg: Registry, own: Handle, message: string, ghost others: set<Handle>) returns (out: Outcome)
    requires reg.Valid() && reg.Handles() <= others
    modifies reg, others
    ensures reg.Valid()
    ensures out == Response(old(reg.order), old(reg.entries), old(reg.WritableFlags(reg.order)), message)
    ensures old(reg.order) <= reg.order && EntriesGrowBy(old(reg.entries), reg.entries, own)
    ensures reg.Handles() <= old(reg.Handles()) + {own}
    ensures own.writable == old(own.writable)
    ensures own.outbox ==
      old(own.outbox) +
      if RelayTarget(old(reg.order), old(reg.entries), old(reg.WritableFlags(reg.order)), message) == Some(own)
      then [RelayData(message)] else []
    ensures RequestType(message) == "REGISTER" ==> RegisterEffect(reg, MessageHeaders(message), own)
    ensures RequestType(message) != "REGISTER" ==> RegistryUnchanged(reg)
    ensures Relayed(others, RelayTarget(old(reg.order), old(reg.entries), old(reg.WritableFlags(reg.order)), message), RelayData(message))
  {
    ghost var flags := reg.WritableFlags(reg.order);
    ghost var response := Response(reg.order, reg.entries, flags, message);
    ghost var target := RelayTarget(reg.order, reg.entries, flags, message);
    ghost var before := own.outbox;
    out := Dispatch(reg, own, message, others);
    assert out == response;
    assert own.outbox == before + if target == Some(own) then [RelayData(message)] else [];
    assert Relayed(others, target, RelayData(message));
    ghost var headers := MessageHeaders(message);
    if RequestType(message) == "REGISTER" && Stores(headers) {
      StoreGrows(old(reg.entries), headers["clientID"], Peer(headers["IP"], DecimalValue(headers["Port"]), own), own);
    }
  }

  /**
    The body of the session loop for one received message: dispatch it, and
    unless handling raised, write the reply back on `own`; `sent` reports
    whether a reply went out. Besides the reply, `own` receives only a CHAT
    relayed to it when it is also registered under another ID.
   */
  method Serve(reg: Registry, own: Handle, message: string, ghost others: set<Handle>) returns (out: Outcome, sent: bool)
    requires reg.Valid() && reg.Handles() <= others
    modifies reg, others, own
    ensures reg.Valid()
    ensures out == Response(old(reg.order), old(reg.entries), old(reg.WritableFlags(reg.order)), message)
    ensures old(reg.order) <= reg.order && EntriesGrowBy(old(reg.entries), reg.entries, own)
    ensures reg.Handles() <= old(reg.Handles()) + {own}
    ensures own.writable == old(own.writable)
    ensures sent <==> out.Reply? && old(own.writable)
    ensures own.outbox ==
      old(own.outbox) +
      (if RelayTarget(old(reg.order), old(reg.entries), old(reg.WritableFlags(reg.order)), message) == Some(own)
       then [RelayData(message)] else []) +
      (if sent then [out.text] else [])
    ensures !sent ==> own.outbox == old(own.outbox)
    ensures out.Abort? ==> RegistryUnchanged(reg)
    ensures RequestType(message) == "REGISTER" ==> RegisterEffect(reg, MessageHeaders(message), own)
    ensures RequestType(message) != "REGISTER" ==> RegistryUnchanged(reg)
    ensures Relayed(others - {own},
      RelayTarget(old(reg.order), old(reg.entries), old(reg.WritableFlags(reg.order)), message), RelayData(message))
  {
    out := Process(reg, own, message, others);
    if out.Abort? {
      return out, false;
    }
    ghost var order, entries := reg.order, reg.entries;
    sent := own.Write(out.text);
    assert reg.order == order && reg.entries == entries;
  }

  /**
    The outbox of a session's own connection that held `before` when the
    session began, after its first `n` messages were answered: before the
    reply to the k-th message comes whatever was relayed to it while that
    message was handled.
   */
  function Transcript(before: seq<string>, relayed: seq<seq<string>>, replies: seq<string>, n: nat): (outbox: seq<string>)
    requires n <= |relayed| && n <= |replies|
    ensures |outbox| >= |before| + n
    ensures outbox[..|before|] == before
  {
    if n == 0 then before
    else Transcript(before, relayed, replies, n - 1) + relayed[n - 1] + [replies[n - 1]]
  }

  /**
    `data` is what a session's connection received as a relay while
    `message` was handled: nothing, or the CHAT that `message` relays.
   */
  predicate RelayOf(message: string, data: seq<string>)
  {
    data == [] ||
    (RequestType(message) == "CHAT" && ChatComplete(MessageHeaders(message)) &&
     data == [RelayedMessage(MessageHeaders(message))])
  }

  /**
    The k-th message of a session was answered: it was not empty, handling
    it did not raise, and `data` is what it relayed to the session's own
    connection.
   */
  predicate Answered(message: string, data: seq<string>)
  {
    message != "" && !Aborts(message) && RelayOf(message, data)
  }

  /** The registry's contents as a value: the IDs in insertion order and the entry stored under each. */
  datatype Contents = Contents(order: seq<string>, entries: map<string, Peer>)

  /**
    The contents after `message` is handled on the connection `own`: a
    REGISTER that stores changes them as RegisterEffect says, and every other
    message leaves them as they were.
   */
  function Stored(c: Contents, message: string, own: Handle): (d: Contents)
    ensures c.order <= d.order && EntriesGrowBy(c.entries, d.entries, own)
    ensures Consistent(c.order, c.entries) ==> Consistent(d.order, d.entries)
    ensures d != c ==> RequestType(message) == "REGISTER" && Stores(MessageHeaders(message))
    ensures RequestType(message) == "REGISTER" && Stores(MessageHeaders(message)) ==>
      MessageHeaders(message)["clientID"] in d.entries && d.entries[MessageHeaders(message)["clientID"]].handle == own
  {
    var headers := MessageHeaders(message);
    if RequestType(message) == "REGISTER" && Stores(headers) then
      var id := headers["clientID"];
      var peer := Peer(headers["IP"], DecimalValue(headers["Port"]), own);
      StoreGrows(c.entries, id, peer, own);
      Contents(InsertionOrder(c.order, id), c.entries[id := peer])
    else c
  }

  /** The contents after the first `n` messages of `inbox` are handled in turn on the connection `own`. */
  function StoredAll(c: Contents, inbox: seq<string>, n: nat, own: Handle): (d: Contents)
    requires n <= |inbox|
    ensures c.order <= d.order && EntriesGrowBy(c.entries, d.entries, own)
    ensures Consistent(c.order, c.entries) ==> Consistent(d.order, d.entries)
  {
    if n == 0 then c
    else
      var before := StoredAll(c, inbox, n - 1, own);
      EntriesGrowTransitive(c.entries, before.entries, Stored(before, inbox[n - 1], own).entries, own);
      Stored(before, inbox[n - 1], own)
  }

  /**
    Every client that a storing REGISTER among the first `n` messages of
    `inbox` registered is in `entries`, on the connection `own`.
   */
  ghost predicate Registered(entries: map<string, Peer>, inbox: seq<string>, n: nat, own: Handle)
    requires n <= |inbox|
  {
    forall k :: 0 <= k < n && RequestType(inbox[k]) == "REGISTER" && Stores(MessageHeaders(inbox[k])) ==>
      MessageHeaders(inbox[k])["clientID"] in entries && entries[MessageHeaders(inbox[k])["clientID"]].handle == own
  }

  /** One more message handled: every client registered before stays, and a storing REGISTER adds its own. */
  lemma RegisteredSnoc(before: map<string, Peer>, after: map<string, Peer>, inbox: seq<string>, n: nat, own: Handle)
    requires n < |inbox| && Registered(before, inbox, n, own) && EntriesGrowBy(before, after, own)
    requires RequestType(inbox[n]) == "REGISTER" && Stores(MessageHeaders(inbox[n])) ==>
      MessageHeaders(inbox[n])["clientID"] in after && after[MessageHeaders(inbox[n])["clientID"]].handle == own
    ensures Registered(after, inbox, n + 1, own)
  {
  }


  /** The connections in `handles` with their writable flags. */
  function Writability(handles: set<Handle>): (w: map<Handle, bool>)
    reads handles
    ensures w.Keys == handles
    ensures forall h {:trigger w[h]} :: h in w ==> w[h] == h.writable
  {
    map h | h in handles :: h.writable
  }

  /**
    The writable flag of each listed ID's connection, position by position,
    taken from `w`; an ID without an entry, or a connection `w` does not
    know, counts as closed.
   */
  function FlagsIn(ids: seq<string>, entries: map<string, Peer>, w: map<Handle, bool>): (flags: seq<bool>)
    ensures |flags| == |ids|
    decreases |ids|
  {
    if ids == [] then []
    else [ids[0] in entries && entries[ids[0]].handle in w && w[entries[ids[0]].handle]] + FlagsIn(ids[1..], entries, w)
  }

  /** The k-th flag is whether the k-th ID is registered on a connection that `w` marks open. */
  lemma {:induction false} FlagsInAt(ids: seq<string>, entries: map<string, Peer>, w: map<Handle, bool>, k: nat)
    requires k < |ids|
    ensures FlagsIn(ids, entries, w)[k] == (ids[k] in entries && entries[ids[k]].handle in w && w[entries[ids[k]].handle])
    decreases k
  {
    if k > 0 {
      FlagsInAt(ids[1..], entries, w, k - 1);
    }
  }

  /** While `w` holds the flag of every registered connection, the flags the handlers read are those of `w`. */
  lemma FlagsMatch(reg: Registry, w: map<Handle, bool>)
    requires reg.Valid()
    requires forall h :: h in reg.Handles() ==> h in w && w[h] == h.writable
    ensures reg.WritableFlags(reg.order) == FlagsIn(reg.order, reg.entries, w)
  {
    var flags, expected := reg.WritableFlags(reg.order), FlagsIn(reg.order, reg.entries, w);
    forall k | 0 <= k < |reg.order|
      ensures flags[k] == expected[k]
    {
      assert reg.entries[reg.order[k]].handle in reg.Handles();
      FlagsInAt(reg.order, reg.entries, w, k);
    }
  }

  /**
    The outcome of the k-th message of a session that began with the
    contents `c0` and the writable flags `w`: the Response to it in the
    registry left by the messages before it.
   */
  function ResponseAt(c0: Contents, w: map<Handle, bool>, inbox: seq<string>, k: nat, own: Handle): Outcome
    requires Consistent(c0.order, c0.entries) && k < |inbox|
  {
    var c := StoredAll(c0, inbox, k, own);
    Response(c.order, c.entries, FlagsIn(c.order, c.entries, w), inbox[k])
  }

  /** Each reply of a session is the reply its message's ResponseAt gives. */
  ghost predicate RepliesMatch(c0: Contents, w: map<Handle, bool>, inbox: seq<string>, replies: seq<string>, own: Handle)
    requires Consistent(c0.order, c0.entries)
  {
    |replies| <= |inbox| &&
    forall k {:trigger replies[k]} :: 0 <= k < |replies| ==> ResponseAt(c0, w, inbox, k, own) == Reply(replies[k])
  }

  lemma RepliesSnoc(c0: Contents, w: map<Handle, bool>, inbox: seq<string>, replies: seq<string>, reply: string, own: Handle)
    requires Consistent(c0.order, c0.entries) && RepliesMatch(c0, w, inbox, replies, own) && |replies| < |inbox|
    requires ResponseAt(c0, w, inbox, |replies|, own) == Reply(reply)
    ensures RepliesMatch(c0, w, inbox, replies + [reply], own)
  {
    var more := replies + [reply];
    forall k | 0 <= k < |more|
      ensures ResponseAt(c0, w, inbox, k, own) == Reply(more[k])
    {
      if k < |replies| {
        assert more[k] == replies[k];
      }
    }
  }

  /**
    The connection the k-th message of a session relays to: the RelayTarget
    of that message in the registry left by the messages before it.
   */
  function RelayTargetAt(c0: Contents, w: map<Handle, bool>, inbox: seq<string>, k: nat, own: Handle): Option<Handle>
    requires Consistent(c0.order, c0.entries) && k < |inbox|
  {
    var c := StoredAll(c0, inbox, k, own);
    RelayTarget(c.order, c.entries, FlagsIn(c.order, c.entries, w), inbox[k])
  }

  /** What the connection `h` receives as a relay while the k-th message of a session is handled. */
  function RelayAt(c0: Contents, w: map<Handle, bool>, inbox: seq<string>, k: nat, own: Handle, h: Handle): seq<string>
    requires Consistent(c0.order, c0.entries) && k < |inbox|
  {
    if RelayTargetAt(c0, w, inbox, k, own) == Some(h) then [RelayData(inbox[k])] else []
  }

  /** What the connection `h` received as relays while the first `n` messages of a session were handled. */
  function RelaysTo(c0: Contents, w: map<Handle, bool>, inbox: seq<string>, n: nat, own: Handle, h: Handle): seq<string>
    requires Consistent(c0.order, c0.entries) && n <= |inbox|
  {
    if n == 0 then [] else RelaysTo(c0, w, inbox, n - 1, own, h) + RelayAt(c0, w, inbox, n - 1, own, h)
  }

  /** `data` is what the CHAT `message` relays. */
  predicate ChatRelay(message: string, data: string)
  {
    RequestType(message) == "CHAT" && ChatComplete(MessageHeaders(message)) && data == RelayedMessage(MessageHeaders(message))
  }

  /** A connection only ever receives, as a relay, the CHAT that the message being handled carried. */
  lemma RelayAtIsChat(c0: Contents, w: map<Handle, bool>, inbox: seq<string>, k: nat, own: Handle, h: Handle)
    requires Consistent(c0.order, c0.entries) && k < |inbox|
    ensures RelayAt(c0, w, inbox, k, own, h) == [] || RelayAt(c0, w, inbox, k, own, h) == [RelayData(inbox[k])]
    ensures RelayAt(c0, w, inbox, k, own, h) != [] ==> ChatRelay(inbox[k], RelayData(inbox[k]))
  {
  }

  /** `relayed[k]` is exactly what the session's own connection received as a relay while the k-th message was handled. */
  ghost predicate RelaysMatch(c0: Contents, w: map<Handle, bool>, inbox: seq<string>, relayed: seq<seq<string>>, own: Handle)
    requires Consistent(c0.order, c0.entries)
  {
    |relayed| <= |inbox| &&
    forall k {:trigger relayed[k]} :: 0 <= k < |relayed| ==> relayed[k] == RelayAt(c0, w, inbox, k, own, own)
  }

  lemma RelaysSnoc(c0: Contents, w: map<Handle, bool>, inbox: seq<string>, relayed: seq<seq<string>>, extra: seq<string>, own: Handle)
    requires Consistent(c0.order, c0.entries) && RelaysMatch(c0, w, inbox, relayed, own) && |relayed| < |inbox|
    requires extra == RelayAt(c0, w, inbox, |relayed|, own, own)
    ensures RelaysMatch(c0, w, inbox, relayed + [extra], own)
  {
    var more := relayed + [extra];
    forall k | 0 <= k < |more|
      ensures more[k] == RelayAt(c0, w, inbox, k, own, own)
    {
      if k < |relayed| {
        assert more[k] == relayed[k];
      }
    }
  }

  /** Each connection of `received` received exactly the relays the first `n` messages of the session sent it. */
  ghost predicate ReceivedAll(received: map<Handle, seq<string>>, c0: Contents, w: map<Handle, bool>, inbox: seq<string>, n: nat, own: Handle)
    requires Consistent(c0.order, c0.entries) && n <= |inbox|
  {
    received == ReceivedBy(received.Keys, c0, w, inbox, n, own)
  }

  /** The relays the first `n` messages of a session sent to each of `handles`. */
  ghost function ReceivedBy(handles: set<Handle>, c0: Contents, w: map<Handle, bool>, inbox: seq<string>, n: nat, own: Handle): map<Handle, seq<string>>
    requires Consistent(c0.order, c0.entries) && n <= |inbox|
  {
    map h | h in handles :: RelaysTo(c0, w, inbox, n, own, h)
  }

  lemma DeliverSnoc(received: map<Handle, seq<string>>, c0: Contents, w: map<Handle, bool>, inbox: seq<string>, n: nat, own: Handle)
    requires Consistent(c0.order, c0.entries) && n < |inbox| && ReceivedAll(received, c0, w, inbox, n, own)
    ensures ReceivedAll(Deliver(received, RelayTargetAt(c0, w, inbox, n, own), RelayData(inbox[n])), c0, w, inbox, n + 1, own)
  {
    var after := Deliver(received, RelayTargetAt(c0, w, inbox, n, own), RelayData(inbox[n]));
    var goal := ReceivedBy(after.Keys, c0, w, inbox, n + 1, own);
    forall h | h in after
      ensures after[h] == goal[h]
    {
      if RelayTargetAt(c0, w, inbox, n, own) != Some(h) {
        assert RelaysTo(c0, w, inbox, n + 1, own, h) == received[h] + [];
      }
    }
    assert after == goal;
  }

  /** What each of `handles` holds. */
  ghost function Outboxes(handles: set<Handle>): (m: map<Handle, seq<string>>)
    reads handles
    ensures m.Keys == handles && forall h {:trigger m[h]} :: h in m ==> m[h] == h.outbox
  {
    map h | h in handles :: h.outbox
  }

  /** The connections of `w` other than `own` are open as `w` says and hold `before` followed by `received`. */
  ghost predicate OthersHold(w: map<Handle, bool>, before: map<Handle, seq<string>>, received: map<Handle, seq<string>>, own: Handle)
    reads w.Keys - {own}
  {
    forall h {:trigger w[h]} :: h in w && h != own ==>
      h in before && h in received && h.writable == w[h] && h.outbox == before[h] + received[h]
  }

  method Turn(reg: Registry, own: Handle, message: string,
              ghost w: map<Handle, bool>, ghost before: map<Handle, seq<string>>, ghost received: map<Handle, seq<string>>)
    returns (out: Outcome, sent: bool, ghost extra: seq<string>, ghost target: Option<Handle>)
    requires reg.Valid() && reg.Handles() + {own} <= w.Keys && own.writable == w[own]
    requires OthersHold(w, before, received, own)
    modifies reg, w.Keys
    ensures reg.Valid() && reg.Handles() <= old(reg.Handles()) + {own}
    ensures own.writable == w[own]
    ensures target == RelayTarget(old(reg.order), old(reg.entries), FlagsIn(old(reg.order), old(reg.entries), w), message)
    ensures extra == if target == Some(own) then [RelayData(message)] else []
    ensures RelayOf(message, extra)
    ensures OthersHold(w, before, Deliver(received, target, RelayData(message)), own)
    ensures out == Response(old(reg.order), old(reg.entries), FlagsIn(old(reg.order), old(reg.entries), w), message)
    ensures Contents(reg.order, reg.entries) == Stored(Contents(old(reg.order), old(reg.entries)), message, own)
    ensures sent <==> out.Reply? && w[own]
    ensures own.outbox == old(own.outbox) + extra + (if sent then [out.text] else [])
    ensures !sent ==> own.outbox == old(own.outbox)
  {
    assert reg.WritableFlags(reg.order) == FlagsIn(reg.order, reg.entries, w) by {
      FlagsMatch(reg, w);
    }
    target := RelayTarget(reg.order, reg.entries, FlagsIn(reg.order, reg.entries, w), message);
    extra := if target == Some(own) then [RelayData(message)] else [];
    out, sent := Serve(reg, own, message, w.Keys);
    ghost var after := Deliver(received, target, RelayData(message));
    forall h: Handle | h in w && h != own
      ensures h in before && h in after && h.writable == w[h] && h.outbox == before[h] + after[h]
    {
      assert old(h.outbox) == before[h] + received[h];
      DeliverAt(before, received, target, RelayData(message), h);
    }
  }

  /** What `h` holds after a relay to `target`: one more message exactly when it is the target. */
  lemma DeliverAt(before: map<Handle, seq<string>>, received: map<Handle, seq<string>>, target: Option<Handle>, data: string, h: Handle)
    requires h in before && h in received
    ensures h in Deliver(received, target, data)
    ensures before[h] + Deliver(received, target, data)[h] ==
      before[h] + received[h] + if target == Some(h) then [data] else []
  {
    if target == Some(h) {
      assert before[h] + received[h] + [data] == before[h] + (received[h] + [data]);
    }
  }

  /** `received` after `data` is delivered to `target`. */
  function Deliver(received: map<Handle, seq<string>>, target: Option<Handle>, data: string): (after: map<Handle, seq<string>>)
    ensures after.Keys == received.Keys
  {
    if target.Some? && target.value in received then received[target.value := received[target.value] + [data]] else received
  }

  /**
    What a session that began with the contents `c0` and the writable flags
    `w` has done after dispatching the first `handled` messages of `inbox`,
    as values: the k-th reply is the response to the k-th message in the
    registry state before it, and `relayed[k]` is exactly what the session's
    own connection received as a relay meanwhile; every answered message
    was non-empty and did not raise; and each other connection of
    `received` received exactly the relays sent to it.
   */
  ghost predicate Trace(c0: Contents, w: map<Handle, bool>, inbox: seq<string>, handled: nat,
                        replies: seq<string>, relayed: seq<seq<string>>, received: map<Handle, seq<string>>, own: Handle)
  {
    handled <= |inbox| && |replies| <= handled && |relayed| == |replies| && Consistent(c0.order, c0.entries) &&
    (forall k {:trigger relayed[k]} :: 0 <= k < |replies| ==> Answered(inbox[k], relayed[k])) &&
    RelaysMatch(c0, w, inbox, relayed, own) &&
    RepliesMatch(c0, w, inbox, replies, own) &&
    ReceivedAll(received, c0, w, inbox, handled, own)
  }

  /**
    One more message dispatched: its outcome is its ResponseAt, and when it
    is answered the reply and what the session's own connection received as
    a relay are appended; every other connection receives its relay.
   */
  lemma TraceSnoc(c0: Contents, w: map<Handle, bool>, inbox: seq<string>, i: nat, replies: seq<string>,
                  relayed: seq<seq<string>>, received: map<Handle, seq<string>>, own: Handle, out: Outcome, sent: bool)
    requires Trace(c0, w, inbox, i, replies, relayed, received, own) && i < |inbox| && inbox[i] != "" && |replies| == i
    requires out == ResponseAt(c0, w, inbox, i, own) && (sent ==> out.Reply?)
    ensures Trace(c0, w, inbox, i + 1,
                  if sent then replies + [out.text] else replies,
                  if sent then relayed + [RelayAt(c0, w, inbox, i, own, own)] else relayed,
                  Deliver(received, RelayTargetAt(c0, w, inbox, i, own), RelayData(inbox[i])), own)
  {
    DeliverSnoc(received, c0, w, inbox, i, own);
    if sent {
      var extra := RelayAt(c0, w, inbox, i, own, own);
      RelayAtIsChat(c0, w, inbox, i, own, own);
      AnsweredSnoc(inbox, relayed, extra);
      RelaysSnoc(c0, w, inbox, relayed, extra, own);
      RepliesSnoc(c0, w, inbox, replies, out.text, own);
    }
  }

  /**
    What a session that has dispatched the first `handled` messages of `inbox`
    has done, apart from `own`'s own fields: the registry holds what those
    messages stored, starting from `c0`; the k-th reply is the response to
    the k-th message in the registry state before it, with the connections
    open as `w` says, and `relayed[k]` is the relay it received meanwhile;
    and every other connection of `w` is open as `w` says and holds what it
    held (`before`) followed by `received`, relays of CHAT messages among
    those handled.
   */
  ghost predicate Settled(reg: Registry, own: Handle, inbox: seq<string>, c0: Contents, w: map<Handle, bool>,
                          before: map<Handle, seq<string>>, handled: nat,
                          replies: seq<string>, relayed: seq<seq<string>>, received: map<Handle, seq<string>>)
    reads reg, w.Keys - {own}
  {
    Trace(c0, w, inbox, handled, replies, relayed, received, own) &&
    reg.Valid() && reg.Handles() + {own} <= w.Keys && own in w && (replies != [] ==> w[own]) &&
    Contents(reg.order, reg.entries) == StoredAll(c0, inbox, handled, own) &&
    Registered(reg.entries, inbox, handled, own) &&
    received.Keys == before.Keys && OthersHold(w, before, received, own)
  }

  /**
    Where a session on `own` stands after it dispatched the first `handled`
    messages of `inbox` and answered `replies` to them: the session began
    with the contents `c0`, the writable flags `w`, `start` on `own` and
    `before` on every other connection; `relayed[k]` is what `own` received
    as a relay while the k-th message was handled, and `received` is what
    each other connection received.
   */
  ghost predicate Progress(reg: Registry, own: Handle, inbox: seq<string>, c0: Contents, w: map<Handle, bool>,
                           before: map<Handle, seq<string>>, start: seq<string>, handled: nat,
                           replies: seq<string>, relayed: seq<seq<string>>, received: map<Handle, seq<string>>)
    reads reg, w.Keys
  {
    Trace(c0, w, inbox, handled, replies, relayed, received, own) &&
    reg.Valid() && reg.Handles() + {own} <= w.Keys && own in w && own.writable == w[own] &&
    (replies != [] ==> w[own]) &&
    own.outbox == Transcript(start, relayed, replies, |replies|) &&
    Contents(reg.order, reg.entries) == StoredAll(c0, inbox, handled, own) &&
    Registered(reg.entries, inbox, handled, own) &&
    received.Keys == before.Keys && OthersHold(w, before, received, own)
  }

  /** A session's progress, without `own`'s own fields. */
  lemma ProgressSettles(reg: Registry, own: Handle, inbox: seq<string>, c0: Contents, w: map<Handle, bool>,
                        before: map<Handle, seq<string>>, start: seq<string>, handled: nat,
                        replies: seq<string>, relayed: seq<seq<string>>, received: map<Handle, seq<string>>)
    requires Progress(reg, own, inbox, c0, w, before, start, handled, replies, relayed, received)
    ensures Settled(reg, own, inbox, c0, w, before, handled, replies, relayed, received)
  {
  }

  /**
    The session loop's body on the i-th message, which is not empty: it is
    handled by Turn, and the session's progress takes in that message.
   */
  method Step(reg: Registry, own: Handle, inbox: seq<string>, i: nat, ghost c0: Contents, ghost w: map<Handle, bool>,
              ghost before: map<Handle, seq<string>>, ghost start: seq<string>,
              replies: seq<string>, ghost relayed: seq<seq<string>>, ghost received: map<Handle, seq<string>>)
    returns (sent: bool, newReplies: seq<string>, ghost newRelayed: seq<seq<string>>, ghost newReceived: map<Handle, seq<string>>)
    requires i < |inbox| && inbox[i] != "" && |replies| == i
    requires Progress(reg, own, inbox, c0, w, before, start, i, replies, relayed, received)
    modifies reg, w.Keys
    ensures Progress(reg, own, inbox, c0, w, before, start, i + 1, newReplies, newRelayed, newReceived)
    ensures sent <==> !Aborts(inbox[i]) && w[own]
    ensures sent ==> |newReplies| == i + 1
    ensures !sent ==> newReplies == replies
  {
    var message := inbox[i];
    var out;
    ghost var extra, target;
    ghost var entries := reg.entries;
    out, sent, extra, target := Turn(reg, own, message, w, before, received);
    RegisteredSnoc(entries, reg.entries, inbox, i, own);
    assert target == RelayTargetAt(c0, w, inbox, i, own) && extra == RelayAt(c0, w, inbox, i, own, own);
    TraceSnoc(c0, w, inbox, i, replies, relayed, received, own, out, sent);
    newReceived := Deliver(received, target, RelayData(message));
    if sent {
      TranscriptSnoc(start, relayed, replies, extra, out.text);
      newReplies, newRelayed := replies + [out.text], relayed + [extra];
    } else {
      newReplies, newRelayed := replies, relayed;
    }
  }

  /** A session's progress before its first message: nothing answered, stored or relayed yet. */
  ghost method Begin(reg: Registry, own: Handle, inbox: seq<string>, c0: Contents, w: map<Handle, bool>,
                     before: map<Handle, seq<string>>, start: seq<string>)
    returns (received: map<Handle, seq<string>>)
    requires reg.Valid() && Consistent(c0.order, c0.entries) && c0 == Contents(reg.order, reg.entries)
    requires reg.Handles() + {own} <= w.Keys && own.writable == w[own] && own.outbox == start
    requires before.Keys == w.Keys - {own} && OthersHold(w, before, map h | h in before :: [], own)
    ensures Progress(reg, own, inbox, c0, w, before, start, 0, [], [], received)
  {
    received := map h | h in before :: [];
    assert received == ReceivedBy(received.Keys, c0, w, inbox, 0, own);
  }

  /**
    The session loop: dispatches the messages of `inbox` in turn until an
    empty one, one that gets no reply, or the end of `inbox`.
   */
  method Exchange(reg: Registry, own: Handle, inbox: seq<string>, ghost c0: Contents, ghost w: map<Handle, bool>,
                  ghost before: map<Handle, seq<string>>, ghost start: seq<string>)
    returns (replies: seq<string>, ghost relayed: seq<seq<string>>, ghost received: map<Handle, seq<string>>, ghost handled: nat)
    requires reg.Valid() && Consistent(c0.order, c0.entries) && c0 == Contents(reg.order, reg.entries)
    requires reg.Handles() + {own} <= w.Keys && own.writable == w[own] && own.outbox == start
    requires before.Keys == w.Keys - {own} && OthersHold(w, before, map h | h in before :: [], own)
    modifies reg, w.Keys
    ensures Progress(reg, own, inbox, c0, w, before, start, handled, replies, relayed, received)
    ensures handled <= |replies| + 1
    ensures handled == |replies| + 1 ==> inbox[|replies|] != "" && (Aborts(inbox[|replies|]) || !w[own])
    ensures handled == |replies| ==> handled == |inbox| || inbox[handled] == ""
  {
    received := Begin(reg, own, inbox, c0, w, before, start);
    replies, relayed := [], [];
    var i, going := 0, true;
    while going && i < |inbox|
      invariant Progress(reg, own, inbox, c0, w, before, start, i, replies, relayed, received)
      invariant going ==> |replies| == i
      invariant !going ==>
        (|replies| == i < |inbox| && inbox[i] == "") ||
        (i == |replies| + 1 && inbox[|replies|] != "" && (Aborts(inbox[|replies|]) || !w[own]))
      decreases |inbox| - i, going
    {
      if inbox[i] == "" {
        going := false;
      } else {
        going, replies, relayed, received := Step(reg, own, inbox, i, c0, w, before, start, replies, relayed, received);
        i := i + 1;
      }
    }
    handled := i;
  }

  /**
    A session whose connection stays writable, on an inbox whose first `n`
    messages are all answered and whose next one is empty, sends exactly
    the replies that ResponseAt gives for those `n` messages, and its
    connection receives exactly their relays.
   */
  lemma SessionAnswersUpTo(c0: Contents, w: map<Handle, bool>, inbox: seq<string>, n: nat, own: Handle, handled: nat,
                           replies: seq<string>, relayed: seq<seq<string>>, received: map<Handle, seq<string>>,
                           expected: seq<string>, expectedRelays: seq<seq<string>>)
    requires Trace(c0, w, inbox, handled, replies, relayed, received, own)
    requires |replies| < |inbox| ==> inbox[|replies|] == "" || Aborts(inbox[|replies|])
    requires n < |inbox| && inbox[n] == "" && |expected| == n && |expectedRelays| == n
    requires forall k :: 0 <= k < n ==> inbox[k] != "" && !Aborts(inbox[k])
    requires forall k :: 0 <= k < n ==> ResponseAt(c0, w, inbox, k, own) == Reply(expected[k])
    requires forall k :: 0 <= k < n ==> RelayAt(c0, w, inbox, k, own, own) == expectedRelays[k]
    ensures replies == expected && relayed == expectedRelays
  {
    assert |replies| > n ==> Answered(inbox[n], relayed[n]);
    assert |replies| == n;
    forall k | 0 <= k < n
      ensures replies[k] == expected[k] && relayed[k] == expectedRelays[k]
    {
      assert ResponseAt(c0, w, inbox, k, own) == Reply(replies[k]);
    }
  }

  /**
    One client session: receives the messages of `inbox` in turn and answers
    each on `own`, until a zero-length read, an exception while handling, or
    a failed reply write; then closes `own`. Entries registered during the
    session stay in the registry, pointing at the closed connection.
    `relayed[k]` is what `own` received as a relay while the k-th message
    was handled.
   */
  method Session(reg: Registry, own: Handle, inbox: seq<string>)
    returns (replies: seq<string>, ghost relayed: seq<seq<string>>, ghost received: map<Handle, seq<string>>)
    requires reg.Valid()
    modifies reg, reg.Handles(), own
    ensures reg.Valid() && !own.writable
    ensures |replies| <= |inbox|
    ensures |replies| < |inbox| ==> inbox[|replies|] == "" || Aborts(inbox[|replies|]) || !old(own.writable)
    ensures !old(own.writable) ==> replies == []
    ensures |relayed| == |replies| && own.outbox == Transcript(old(own.outbox), relayed, replies, |replies|)
    ensures Settled(reg, own, inbox, Contents(old(reg.order), old(reg.entries)), old(Writability(reg.Handles() + {own})),
                    old(Outboxes(reg.Handles() - {own})), Handled(inbox, replies), replies, relayed, received)
    ensures Registered(reg.entries, inbox, Handled(inbox, replies), own)
    ensures old(reg.order) <= reg.order
    ensures EntriesGrowBy(old(reg.entries), reg.entries, own)
    ensures reg.Handles() <= old(reg.Handles()) + {own}
  {
    ghost var handled;
    ghost var c0, w0, before0 := Contents(reg.order, reg.entries), Writability(reg.Handles() + {own}), Outboxes(reg.Handles() - {own});
    ghost var start := own.outbox;
    replies, relayed, received, handled := Exchange(reg, own, inbox, c0, w0, before0, start);
    assert handled == Handled(inbox, replies);
    ProgressSettles(reg, own, inbox, c0, w0, before0, start, handled, replies, relayed, received);
    ghost var order, entries := reg.order, reg.entries;
    own.Close();
    assert reg.order == order && reg.entries == entries;
  }

  /**
    How many messages of `inbox` a session that sent `replies` dispatched:
    one more than it answered when it stopped at a non-empty message.
   */
  function Handled(inbox: seq<string>, replies: seq<string>): (n: nat)
    requires |replies| <= |inbox|
    ensures |replies| <= n <= |inbox| && n <= |replies| + 1
    ensures n == |replies| + 1 <==> |replies| < |inbox| && inbox[|replies|] != ""
  {
    if |replies| < |inbox| && inbox[|replies|] != "" then |replies| + 1 else |replies|
  }

  lemma TranscriptSnoc(before: seq<string>, relayed: seq<seq<string>>, replies: seq<string>, extra: seq<string>, reply: string)
    requires |relayed| == |replies|
    ensures Transcript(before, relayed + [extra], replies + [reply], |replies| + 1) ==
      Transcript(before, relayed, replies, |replies|) + extra + [reply]
  {
    TranscriptAgrees(before, relayed + [extra], replies + [reply], relayed, replies, |replies|);
  }

  /** The first `n` exchanges decide the transcript, whatever follows them. */
  lemma {:induction false} TranscriptAgrees(before: seq<string>, relayed: seq<seq<string>>, replies: seq<string>,
                                            relayed2: seq<seq<string>>, replies2: seq<string>, n: nat)
    requires n <= |relayed| && n <= |replies| && n <= |relayed2| && n <= |replies2|
    requires forall k :: 0 <= k < n ==> relayed[k] == relayed2[k] && replies[k] == replies2[k]
    ensures Transcript(before, relayed, replies, n) == Transcript(before, relayed2, replies2, n)
  {
    if n > 0 {
      TranscriptAgrees(before, relayed, replies, relayed2, replies2, n - 1);
    }
  }

  lemma AnsweredSnoc(inbox: seq<string>, relayed: seq<seq<string>>, extra: seq<string>)
    requires |relayed| < |inbox| && Answered(inbox[|relayed|], extra)
    requires forall k {:trigger relayed[k]} :: 0 <= k < |relayed| ==> Answered(inbox[k], relayed[k])
    ensures forall k {:trigger (relayed + [extra])[k]} :: 0 <= k < |relayed| + 1 ==> Answered(inbox[k], (relayed + [extra])[k])
  {
  }
}

=== FILE: text.dfy ===
/**
  Text primitives the protocol is built from: substring search, Python's
  `str.split(sep)` and `str.strip()`, and ASCII decimal numerals (what
  `int(text)` and `str(n)` do on digit strings).
 */
module Text {

  datatype Option<T> = None | Some(value: T)

  /** The line terminator of the wire format. */
  const CRLF: string := "\r\n"

  /** `pat` occurs in `s` starting at index `i`. */
  predicate Occurs(s: string, pat: string, i: int)
  {
    0 <= i && i + |pat| <= |s| && s[i..i + |pat|] == pat
  }

  /** `pat` occurs nowhere in `s` (Python's `pat not in s`). */
  predicate Free(s: string, pat: string)
  {
    forall i :: 0 <= i <= |s| ==> !Occurs(s, pat, i)
  }

  lemma OccursInTail(s: string, pat: string, k: int)
    requires |s| > 0 && k >= 0
    ensures Occurs(s[1..], pat, k) <==> Occurs(s, pat, k + 1)
  {
    if k + 1 + |pat| <= |s| {
      assert s[1..][k..k + |pat|] == s[k + 1..k + 1 + |pat|];
    }
  }

  /** Index of the first occurrence of `pat` in `s`, if any. */
  function IndexOf(s: string, pat: string): (r: Option<nat>)
    requires |pat| > 0
    ensures r.Some? ==> Occurs(s, pat, r.value)
    ensures r.Some? ==> forall j :: 0 <= j < r.value ==> !Occurs(s, pat, j)
    ensures r.None? <==> Free(s, pat)
    decreases |s|
  {
    if |s| < |pat| then None
    else if s[..|pat|] == pat then assert Occurs(s, pat, 0); Some(0)
    else
      match IndexOf(s[1..], pat)
      case None =>
        FreeFromTail(s, pat);
        None
      case Some(k) =>
        FirstFromTail(s, pat, k);
        Some(k + 1)
  }

  lemma FreeFromTail(s: string, pat: string)
    requires |s| >= |pat| > 0 && s[..|pat|] != pat && Free(s[1..], pat)
    ensures Free(s, pat)
  {
    forall i ensures !Occurs(s, pat, i) {
      if i > 0 {
        OccursInTail(s, pat, i - 1);
      }
    }
  }

  lemma FirstFromTail(s: string, pat: string, k: nat)
    requires |s| >= |pat| > 0 && s[..|pat|] != pat
    requires Occurs(s[1..], pat, k) && forall j :: 0 <= j < k ==> !Occurs(s[1..], pat, j)
    ensures Occurs(s, pat, k + 1) && forall j :: 0 <= j < k + 1 ==> !Occurs(s, pat, j)
  {
    OccursInTail(s, pat, k);
    forall j | 0 < j < k + 1 ensures !Occurs(s, pat, j) {
      OccursInTail(s, pat, j - 1);
    }
  }

  /** A prefix that ends before the first occurrence of `pat` is free of it. */
  lemma PrefixBeforeFirstIsFree(s: string, pat: string, i: nat)
    requires |pat| > 0 && i <= |s|
    requires forall j :: 0 <= j < i ==> !Occurs(s, pat, j)
    ensures Free(s[..i], pat)
  {
    forall j | 0 <= j <= i ensures !Occurs(s[..i], pat, j) {
      if j + |pat| <= i {
        assert s[..i][j..j + |pat|] == s[j..j + |pat|];
        assert !Occurs(s, pat, j);
      }
    }
  }

  /** Python's `sep.join(parts)`. */
  function Join(parts: seq<string>, sep: string): string
  {
    if |parts| == 0 then ""
    else if |parts| == 1 then parts[0]
    else parts[0] + sep + Join(parts[1..], sep)
  }

  /**
    Python's `s.split(sep)`: the pieces between the occurrences of `sep`,
    found left to right without overlap. Joining the pieces gives `s` back,
    and no piece contains `sep`.
   */
  function Split(s: string, sep: string): (parts: seq<string>)
    requires |sep| > 0
    ensures |parts| >= 1
    ensures Join(parts, sep) == s
    ensures forall k :: 0 <= k < |parts| ==> Free(parts[k], sep)
    decreases |s|
  {
    match IndexOf(s, sep)
    case None => [s]
    case Some(i) =>
      var rest := Split(s[i + |sep|..], sep);
      PrefixBeforeFirstIsFree(s, sep, i);
      assert ([s[..i]] + rest)[1..] == rest;
      assert s[..i] + sep + s[i + |sep|..] == s;
      [s[..i]] + rest
  }

  /** Splitting at a first occurrence at `i` gives the text before it and the split of the text after it. */
  lemma SplitAt(s: string, sep: string, i: nat)
    requires |sep| > 0 && Occurs(s, sep, i)
    requires forall j :: 0 <= j < i ==> !Occurs(s, sep, j)
    ensures Split(s, sep) == [s[..i]] + Split(s[i + |sep|..], sep)
  {
    var r := IndexOf(s, sep);
    assert r.Some?;
    assert !(r.value < i);
    assert !(r.value > i);
  }

  lemma SplitFree(s: string, sep: string)
    requires |sep| > 0 && Free(s, sep)
    ensures Split(s, sep) == [s]
  {
  }

  // ---- CRLF-separated lines ----

  lemma FreeOfCR(s: string)
    requires '\r' !in s
    ensures Free(s, CRLF)
  {
    forall i | 0 <= i <= |s| ensures !Occurs(s, CRLF, i) {
      if i + 2 <= |s| {
        assert s[i..i + 2][0] == s[i] && s[i] in s;
      }
    }
  }

  /** CRLF occurs at `i` exactly when a carriage return at `i` is followed by a line feed. */
  lemma CRLFAt(s: string, i: int)
    ensures Occurs(s, CRLF, i) <==> 0 <= i && i + 2 <= |s| && s[i] == '\r' && s[i + 1] == '\n'
  {
    if 0 <= i && i + 2 <= |s| && s[i] == '\r' && s[i + 1] == '\n' {
      assert s[i..i + 2] == [s[i], s[i + 1]];
    }
  }

  /** Two CRLF-free texts stay CRLF-free when joined, unless the join itself forms a CRLF. */
  lemma FreeConcat(a: string, b: string)
    requires Free(a, CRLF) && Free(b, CRLF)
    requires a == [] || b == [] || a[|a| - 1] != '\r' || b[0] != '\n'
    ensures Free(a + b, CRLF)
  {
    var ab := a + b;
    forall i | 0 <= i <= |ab| ensures !Occurs(ab, CRLF, i) {
      CRLFAt(ab, i);
      if i + 2 <= |a| {
        CRLFAt(a, i);
      } else if |a| <= i && i + 2 <= |ab| {
        CRLFAt(b, i - |a|);
      }
    }
  }

  /** A CRLF-free line followed by CRLF is the first piece of the split. */
  lemma SplitFirstLine(a: string, b: string)
    requires Free(a, CRLF)
    ensures Split(a + CRLF + b, CRLF) == [a] + Split(b, CRLF)
  {
    var m := a + CRLF + b;
    assert m[|a|..|a| + 2] == CRLF;
    forall j | 0 <= j < |a| ensures !Occurs(m, CRLF, j) {
      if j + 2 <= |a| {
        assert m[j..j + 2] == a[j..j + 2];
        assert !Occurs(a, CRLF, j);
      } else {
        assert m[j..j + 2][1] == m[|a|] == '\r';
      }
    }
    SplitAt(m, CRLF, |a|);
    assert m[..|a|] == a;
    assert m[|a| + 2..] == b;
  }

  /** Decoding lines that were joined with CRLF gives the lines back, when none contains CRLF. */
  lemma {:induction false} SplitJoinLines(lines: seq<string>)
    requires |lines| >= 1
    requires forall k :: 0 <= k < |lines| ==> Free(lines[k], CRLF)
    ensures Split(Join(lines, CRLF), CRLF) == lines
    decreases |lines|
  {
    if |lines| == 1 {
      SplitFree(lines[0], CRLF);
    } else {
      SplitJoinLines(lines[1..]);
      SplitFirstLine(lines[0], Join(lines[1..], CRLF));
    }
  }

  // ---- single-character separators ----

  lemma OccursChar(s: string, c: char, i: int)
    ensures Occurs(s, [c], i) <==> 0 <= i < |s| && s[i] == c
  {
    if 0 <= i < |s| {
      assert s[i..i + 1] == [s[i]];
    }
  }

  lemma FreeChar(s: string, c: char)
    ensures Free(s, [c]) <==> c !in s
  {
    if c in s {
      var i :| 0 <= i < |s| && s[i] == c;
      OccursChar(s, c, i);
    } else {
      forall i ensures !Occurs(s, [c], i) {
        OccursChar(s, c, i);
      }
    }
  }

  // ---- Python str.strip() ----

  /** The ASCII characters Python's `str.isspace` accepts. */
  predicate IsSpace(c: char)
  {
    c == ' ' || c == '\t' || c == '\n' || c == '\r' || '\U{000B}' <= c <= '\U{000C}' || '\U{001C}' <= c <= '\U{001F}'
  }

  /** Python's `s.lstrip()`: the longest suffix of `s` that does not start with white space. */
  function TrimStart(s: string): (r: string)
    ensures |r| <= |s| && r == s[|s| - |r|..]
    ensures forall i :: 0 <= i < |s| - |r| ==> IsSpace(s[i])
    ensures r != [] ==> !IsSpace(r[0])
  {
    if s != [] && IsSpace(s[0]) then
      var r := TrimStart(s[1..]);
      assert s[1..][|s| - 1 - |r|..] == s[|s| - |r|..];
      assert forall i :: 1 <= i < |s| - |r| ==> s[i] == s[1..][i - 1];
      r
    else s
  }

  /** Python's `s.rstrip()`: the longest prefix of `s` that does not end with white space. */
  function TrimEnd(s: string): (r: string)
    ensures |r| <= |s| && r == s[..|r|]
    ensures forall i :: |r| <= i < |s| ==> IsSpace(s[i])
    ensures r != [] ==> !IsSpace(r[|r| - 1])
  {
    if s != [] && IsSpace(s[|s| - 1]) then TrimEnd(s[..|s| - 1]) else s
  }

  /**
    Python's `s.strip()`: neither end of the result is white space, and the
    result is empty exactly when `s` is white space throughout.
   */
  function Strip(s: string): (r: string)
    ensures |r| <= |s|
    ensures r != [] ==> !IsSpace(r[0]) && !IsSpace(r[|r| - 1])
    ensures r == [] <==> forall i :: 0 <= i < |s| ==> IsSpace(s[i])
    ensures exists i :: (0 <= i <= |s| - |r| && r == s[i..][..|r|] &&
                         (forall k :: 0 <= k < i ==> IsSpace(s[k])) && (forall k :: i + |r| <= k < |s| ==> IsSpace(s[k])))
  {
    var t := TrimStart(s);
    var r := TrimEnd(t);
    assert r != [] ==> r[0] == t[0];
    var i := |s| - |t|;
    assert 0 <= i <= |s| - |r| && r == s[i..][..|r|] &&
           (forall k :: 0 <= k < i ==> IsSpace(s[k])) && (forall k :: i + |r| <= k < |s| ==> IsSpace(s[k])) by {
      assert t == s[i..];
      forall k | i + |r| <= k < |s|
        ensures IsSpace(s[k])
      {
        assert s[k] == t[k - i];
      }
    }
    r
  }

  /** Python's `s.startswith(p)`: `s` is `p` followed by some text. */
  predicate StartsWith(s: string, p: string): (b: bool)
    ensures b <==> exists t :: s == p + t
  {
    if |p| <= |s| && s[..|p|] == p then
      assert s == p + s[|p|..];
      true
    else
      false
  }

  // ---- ASCII decimal numerals ----

  predicate IsDigit(c: char)
  {
    '0' <= c <= '9'
  }

  /** A non-empty string of ASCII decimal digits. */
  predicate IsDigits(s: string)
  {
    |s| > 0 && forall i :: 0 <= i < |s| ==> IsDigit(s[i])
  }

  /** The value of a digit string, leading zeros allowed (Python's `int` on such text). */
  function DecimalValue(s: string): (v: nat)
    requires forall i :: 0 <= i < |s| ==> IsDigit(s[i])
  {
    if s == [] then 0
    else
      assert IsDigit(s[|s| - 1]);
      10 * DecimalValue(s[..|s| - 1]) + (s[|s| - 1] as int - '0' as int)
  }

  /**
    The last digit of a digit string is the units digit of its value, and
    the value is zero exactly when every digit is zero.
   */
  lemma {:induction false} DecimalValueDigits(s: string)
    requires forall i :: 0 <= i < |s| ==> IsDigit(s[i])
    ensures s != [] ==> DecimalValue(s) % 10 == s[|s| - 1] as int - '0' as int
    ensures DecimalValue(s) == 0 <==> forall i :: 0 <= i < |s| ==> s[i] == '0'
    decreases |s|
  {
    if s != [] {
      var init := s[..|s| - 1];
      DecimalValueDigits(init);
      assert forall i :: 0 <= i < |init| ==> init[i] == s[i];
    }
  }

  function DigitChar(d: nat): (c: char)
    requires d < 10
    ensures IsDigit(c) && c as int - '0' as int == d
  {
    ('0' as int + d) as char
  }

  /** Python's `str(n)` for a non-negative integer. */
  function Decimal(n: nat): (s: string)
    ensures IsDigits(s) && DecimalValue(s) == n
    ensures s[0] == '0' ==> n == 0 && s == "0"
    decreases n
  {
    if n < 10 then [DigitChar(n)]
    else
      var s := Decimal(n / 10) + [DigitChar(n % 10)];
      assert s[..|s| - 1] == Decimal(n / 10);
      s
  }

  lemma {:induction false} LeadingDigitPositive(s: string)
    requires IsDigits(s) && s[0] != '0'
    ensures DecimalValue(s) >= 1
    decreases |s|
  {
    if |s| > 1 {
      LeadingDigitPositive(s[..|s| - 1]);
    }
  }

  /**
    Printing the value of a digit string gives the string back exactly when
    it has no leading zero: `str(int(t)) == t`.
   */
  lemma {:induction false} DecimalOfValue(s: string)
    requires IsDigits(s)
    ensures Decimal(DecimalValue(s)) == s <==> (s[0] != '0' || s == "0")
    decreases |s|
  {
    var n := DecimalValue(s);
    if |s| == 1 {
      assert s[..0] == [] && DecimalValue(s[..0]) == 0 && IsDigit(s[0]);
      assert DigitChar(n) as int == s[0] as int;
      assert Decimal(n) == [s[0]];
    } else {
      var init := s[..|s| - 1];
      var d := s[|s| - 1] as int - '0' as int;
      assert init[0] == s[0];
      DecimalOfValue(init);
      assert n / 10 == DecimalValue(init) && n % 10 == d;
      if s[0] != '0' {
        LeadingDigitPositive(init);
        assert s == init + [s[|s| - 1]];
      }
    }
  }
}

=== FILE: wire.dfy ===
/**
  The wire format shared by the server and the two clients: a request line,
  `key: value` header lines and a blank line, all separated by CRLF.
  The server decodes with `parse_headers`; the clients and the server build
  fixed request and reply strings.
 */
module Wire {
  import opened Text

  const HeaderSep: string := ": "

  /**
    Python's `key, value = line.split(": ", 1)` behind the guard
    `if ": " in line`: the line splits at the FIRST `": "`, so the value may
    itself contain `": "`; a line without `": "` gives nothing.
   */
  function SplitHeader(line: string): (r: Option<(string, string)>)
    ensures r.None? <==> Free(line, HeaderSep)
    ensures r.Some? ==> line == r.value.0 + HeaderSep + r.value.1 && Free(r.value.0, HeaderSep)
  {
    match IndexOf(line, HeaderSep)
    case None => None
    case Some(i) =>
      PrefixBeforeFirstIsFree(line, HeaderSep, i);
      assert line == line[..i] + line[i..i + 2] + line[i + 2..];
      Some((line[..i], line[i + 2..]))
  }

  /** `line` is a header line whose key is `key`. */
  predicate Defines(line: string, key: string)
  {
    SplitHeader(line).Some? && SplitHeader(line).value.0 == key
  }

  /** No line after index `j` defines `key`. */
  predicate LastDefinition(lines: seq<string>, key: string, j: int)
  {
    forall k :: 0 <= k < |lines| && j < k ==> !Defines(lines[k], key)
  }

  /**
    The header mapping built by `parse_headers` from the lines after the
    request line, as a left-to-right fold: each header line sets its key,
    other lines are skipped. HeaderKeys and HeaderValue state what it holds.
   */
  function HeadersOf(lines: seq<string>): (h: map<string, string>)
    ensures lines == [] ==> h == map[]
  {
    if lines == [] then map[]
    else
      var prev := HeadersOf(lines[..|lines| - 1]);
      match SplitHeader(lines[|lines| - 1])
      case None => prev
      case Some(kv) => prev[kv.0 := kv.1]
  }

  lemma HeadersOfSnoc(lines: seq<string>, line: string)
    ensures HeadersOf(lines + [line]) ==
      match SplitHeader(line) case None => HeadersOf(lines) case Some(kv) => HeadersOf(lines)[kv.0 := kv.1]
  {
    assert (lines + [line])[..|lines|] == lines;
  }

  /** Decoding keeps exactly the keys of the header lines: lines without `": "` contribute nothing. */
  lemma {:induction false} HeaderKeys(lines: seq<string>, key: string)
    ensures key in HeadersOf(lines) <==> exists j :: 0 <= j < |lines| && Defines(lines[j], key)
    decreases |lines|
  {
    if lines != [] {
      var n := |lines| - 1;
      var init := lines[..n];
      assert lines == init + [lines[n]];
      HeaderKeys(init, key);
      HeadersOfSnoc(init, lines[n]);
      if exists j :: 0 <= j < |init| && Defines(init[j], key) {
        var j :| 0 <= j < |init| && Defines(init[j], key);
        assert Defines(lines[j], key);
      }
      if exists j :: 0 <= j < |lines| && Defines(lines[j], key) {
        var j :| 0 <= j < |lines| && Defines(lines[j], key);
        if j < n {
          assert Defines(init[j], key);
        }
      }
    }
  }

  /**
    A key's value is the value of the LAST line that defines it: a later
    duplicate overwrites an earlier one.
   */
  lemma {:induction false} HeaderValue(lines: seq<string>, j: nat)
    requires j < |lines| && SplitHeader(lines[j]).Some?
    requires LastDefinition(lines, SplitHeader(lines[j]).value.0, j)
    ensures SplitHeader(lines[j]).value.0 in HeadersOf(lines)
    ensures HeadersOf(lines)[SplitHeader(lines[j]).value.0] == SplitHeader(lines[j]).value.1
    decreases |lines|
  {
    var n := |lines| - 1;
    var init := lines[..n];
    var key := SplitHeader(lines[j]).value.0;
    assert lines == init + [lines[n]];
    HeadersOfSnoc(init, lines[n]);
    if j < n {
      assert !Defines(lines[n], key);
      assert init[j] == lines[j];
      forall k | 0 <= k < |init| && j < k ensures !Defines(init[k], key) {
        assert init[k] == lines[k];
      }
      HeaderValue(init, j);
    }
  }

  /**
    The request type (`lines[0]`): the longest prefix of the message without
    a CRLF, so the message either ends there or goes on with a CRLF.
   */
  function RequestType(message: string): (t: string)
    ensures t <= message && Free(t, CRLF)
    ensures |t| == |message| || Occurs(message, CRLF, |t|)
  {
    var lines := Split(message, CRLF);
    assert |lines| > 1 ==> message == lines[0] + CRLF + Join(lines[1..], CRLF);
    lines[0]
  }

  /**
    A message that starts with a type word and a CRLF has that word as its
    request type, whatever follows.
   */
  lemma TypeLine(t: string, rest: string)
    requires '\r' !in t
    ensures RequestType(t + CRLF + rest) == t
  {
    FreeOfCR(t);
    SplitFirstLine(t, rest);
  }

  /** What `parse_headers(message)` returns. */
  function MessageHeaders(message: string): map<string, string>
  {
    HeadersOf(Split(message, CRLF)[1..])
  }

  /** A message of one line, with no CRLF, has no headers. */
  lemma OneLineNoHeaders(message: string)
    requires Free(message, CRLF)
    ensures MessageHeaders(message) == map[]
  {
    SplitFree(message, CRLF);
  }

  /**
    The headers of a message are those of the lines after its first CRLF,
    whatever its request line says.
   */
  lemma HeadersAfterTypeLine(t: string, rest: string)
    requires '\r' !in t
    ensures MessageHeaders(t + CRLF + rest) == HeadersOf(Split(rest, CRLF))
  {
    FreeOfCR(t);
    SplitFirstLine(t, rest);
    assert ([t] + Split(rest, CRLF))[1..] == Split(rest, CRLF);
  }

  /** `parse_headers`, as the loop the server runs. */
  method ParseHeaders(message: string) returns (headers: map<string, string>)
    ensures headers == MessageHeaders(message)
  {
    headers := map[];
    var lines := Split(message, CRLF);
    var rest := lines[1..];
    for i := 0 to |rest|
      invariant headers == HeadersOf(rest[..i])
    {
      var line := rest[i];
      assert rest[..i + 1] == rest[..i] + [line];
      HeadersOfSnoc(rest[..i], line);
      match IndexOf(line, HeaderSep)
      case None =>
      case Some(at) =>
        var key, value := line[..at], line[at + 2..];
        headers := headers[key := value];
    }
    assert rest[..|rest|] == rest;
  }

  // ---- Fixed message formats ----

  /**
    A REGISTER request carrying the Port header text `portText`:
    `REGISTER\r\nclientID: <id>\r\nIP: <ip>\r\nPort: <portText>\r\n\r\n`.
   */
  function RegisterMessage(id: string, ip: string, portText: string): string
  {
    "REGISTER\r\nclientID: " + id + "\r\nIP: " + ip + "\r\nPort: " + portText + "\r\n\r\n"
  }

  /** The clients' REGISTER request: the port is printed in decimal. */
  function RegisterRequest(id: string, ip: string, port: nat): string
  {
    RegisterMessage(id, ip, Decimal(port))
  }

  /** The client's BRIDGE request, `BRIDGE\r\nclientID: <id>\r\n\r\n`. */
  function BridgeRequest(id: string): string
  {
    "BRIDGE\r\nclientID: " + id + "\r\n\r\n"
  }

  /**
    A CHAT message, `CHAT\r\nclientID: <id>\r\nmessage: <message>\r\n\r\n`:
    what the client sends and what the server relays to a peer.
   */
  function ChatMessage(id: string, message: string): string
  {
    "CHAT\r\nclientID: " + id + "\r\nmessage: " + message + "\r\n\r\n"
  }

  /** The REGISTER failure reply, `REGACK\r\nStatus: error\r\n\r\n`. */
  const RegAckError: string := "REGACK\r\nStatus: error\r\n\r\n"

  /** The REGISTER success reply (REGACK ... Status: registered); it echoes the Port header text as received. */
  function RegAckOk(id: string, ip: string, portText: string): string
  {
    "REGACK\r\nclientID: " + id + "\r\nIP: " + ip + "\r\nPort: " + portText + "\r\nStatus: registered\r\n\r\n"
  }

  /** The BRIDGE reply when there is no peer to name. */
  const BridgeAckEmpty: string := "BRIDGEACK\r\nclientID:\r\nIP:\r\nPort:\r\n\r\n"

  /** The BRIDGE reply naming a peer; the port is printed from the stored integer. */
  function BridgeAck(id: string, ip: string, port: nat): string
  {
    "BRIDGEACK\r\nclientID: " + id + "\r\nIP: " + ip + "\r\nPort: " + Decimal(port) + "\r\n\r\n"
  }

  /** The CHAT replies, `CHATACK\r\nStatus: <status>\r\n\r\n`. */
  const ChatAckError: string := "CHATACK\r\nStatus: error\r\n\r\n"
  const ChatAckDelivered: string := "CHATACK\r\nStatus: delivered\r\n\r\n"
  const ChatAckNoPeers: string := "CHATACK\r\nStatus: no peers available\r\n\r\n"

  /** The reply to any other request type, `ERROR\r\nMessage: Unknown request type\r\n\r\n`. */
  const UnknownTypeReply: string := "ERROR\r\nMessage: Unknown request type\r\n\r\n"

  // ---- Decoding what the other side encoded ----

  /** A message of one header line, `t\r\nkey: value\r\n\r\n`, decodes to type `t` and that one header. */
  lemma OneHeaderDecodes(t: string, key: string, value: string)
    requires '\r' !in t && '\r' !in key && ':' !in key && '\r' !in value
    ensures var m := t + CRLF + ((key + HeaderSep + value) + CRLF + ("" + CRLF + ""));
      RequestType(m) == t && MessageHeaders(m) == map[key := value]
  {
    var l1 := key + HeaderSep + value;
    var m := t + CRLF + (l1 + CRLF + ("" + CRLF + ""));
    var lines := Split(m, CRLF);
    assert lines == [t, l1, "", ""] by {
      FreeOfCR(t);
      FreeOfCR(l1);
      SplitFour(t, l1);
    }
    assert lines[1..] == [l1, "", ""];
    OneField(key, value);
  }

  /** The REGISTER failure reply decodes to type REGACK with just `Status: error`. */
  lemma RegAckErrorDecodes()
    ensures RequestType(RegAckError) == "REGACK"
    ensures MessageHeaders(RegAckError) == map["Status" := "error"]
  {
    RegAckErrorShape();
    OneHeaderDecodes("REGACK", "Status", "error");
  }

  /** The CHAT failure reply decodes to type CHATACK with just `Status: error`. */
  lemma ChatAckErrorDecodes()
    ensures RequestType(ChatAckError) == "CHATACK"
    ensures MessageHeaders(ChatAckError) == map["Status" := "error"]
  {
    ChatAckErrorShape();
    OneHeaderDecodes("CHATACK", "Status", "error");
  }

  /** The reply to a relayed CHAT decodes to type CHATACK with just `Status: delivered`. */
  lemma ChatAckDeliveredDecodes()
    ensures RequestType(ChatAckDelivered) == "CHATACK"
    ensures MessageHeaders(ChatAckDelivered) == map["Status" := "delivered"]
  {
    ChatAckDeliveredShape();
    OneHeaderDecodes("CHATACK", "Status", "delivered");
  }

  /** The reply to a CHAT nobody received decodes to type CHATACK with just `Status: no peers available`. */
  lemma ChatAckNoPeersDecodes()
    ensures RequestType(ChatAckNoPeers) == "CHATACK"
    ensures MessageHeaders(ChatAckNoPeers) == map["Status" := "no peers available"]
  {
    ChatAckNoPeersShape();
    OneHeaderDecodes("CHATACK", "Status", "no peers available");
  }

  /** The reply to an unknown request type decodes to type ERROR with a single Message header. */
  lemma UnknownTypeReplyDecodes()
    ensures RequestType(UnknownTypeReply) == "ERROR"
    ensures MessageHeaders(UnknownTypeReply) == map["Message" := "Unknown request type"]
  {
    UnknownTypeReplyShape();
    OneHeaderDecodes("ERROR", "Message", "Unknown request type");
  }

  /** A header line `key: value` with a colon-free key decodes to exactly (key, value). */
  lemma HeaderLine(key: string, value: string)
    requires ':' !in key
    ensures SplitHeader(key + HeaderSep + value) == Some((key, value))
  {
    var line := key + HeaderSep + value;
    assert line[|key|..|key| + 2] == HeaderSep;
    assert Occurs(line, HeaderSep, |key|);
    forall j | 0 <= j < |key| ensures !Occurs(line, HeaderSep, j) {
      assert line[j] == key[j] && key[j] in key;
      assert j + 2 <= |line| ==> line[j..j + 2][0] == line[j];
    }
    var r := IndexOf(line, HeaderSep);
    assert r.Some? && !(r.value < |key|) && !(r.value > |key|);
    assert line[..|key|] == key && line[|key| + 2..] == value;
  }

  /** A line that ends in its only colon is not a header line. */
  lemma BareKeyLine(key: string)
    requires ':' !in key
    ensures SplitHeader(key + ":") == None
  {
    var line := key + ":";
    forall j | 0 <= j <= |line| ensures !Occurs(line, HeaderSep, j) {
      if j + 2 <= |line| {
        assert line[j] == key[j] && key[j] in key;
        assert line[j..j + 2][0] == line[j];
      }
    }
  }

  /** A field line `key: value` with a fixed key is CRLF-free when the value is. */
  lemma FieldLineFree(key: string, value: string)
    requires '\r' !in key && Free(value, CRLF)
    ensures Free(key + HeaderSep + value, CRLF)
  {
    FreeOfCR(key + HeaderSep);
    FreeConcat(key + HeaderSep, value);
  }

  lemma JoinCons(a: string, rest: seq<string>, sep: string)
    requires |rest| >= 1
    ensures Join([a] + rest, sep) == a + sep + Join(rest, sep)
  {
    assert ([a] + rest)[1..] == rest;
  }

  lemma JoinSix(l0: string, l1: string, l2: string, l3: string)
    ensures Join([l0, l1, l2, l3, "", ""], CRLF) == l0 + CRLF + (l1 + CRLF + (l2 + CRLF + (l3 + CRLF + ("" + CRLF + ""))))
  {
    JoinCons("", [""], CRLF);
    JoinCons(l3, ["", ""], CRLF);
    JoinCons(l2, [l3, "", ""], CRLF);
    JoinCons(l1, [l2, l3, "", ""], CRLF);
    JoinCons(l0, [l1, l2, l3, "", ""], CRLF);
    assert [l0, l1, l2, l3, "", ""] == [l0] + [l1, l2, l3, "", ""];
    assert [l1, l2, l3, "", ""] == [l1] + [l2, l3, "", ""];
    assert [l2, l3, "", ""] == [l2] + [l3, "", ""];
    assert [l3, "", ""] == [l3] + ["", ""];
  }

  lemma JoinFive(l0: string, l1: string, l2: string)
    ensures Join([l0, l1, l2, "", ""], CRLF) == l0 + CRLF + (l1 + CRLF + (l2 + CRLF + ("" + CRLF + "")))
  {
    JoinCons("", [""], CRLF);
    JoinCons(l2, ["", ""], CRLF);
    JoinCons(l1, [l2, "", ""], CRLF);
    JoinCons(l0, [l1, l2, "", ""], CRLF);
    assert [l0, l1, l2, "", ""] == [l0] + [l1, l2, "", ""];
    assert [l1, l2, "", ""] == [l1] + [l2, "", ""];
    assert [l2, "", ""] == [l2] + ["", ""];
  }

  lemma JoinFour(l0: string, l1: string)
    ensures Join([l0, l1, "", ""], CRLF) == l0 + CRLF + (l1 + CRLF + ("" + CRLF + ""))
  {
    JoinCons("", [""], CRLF);
    JoinCons(l1, ["", ""], CRLF);
    JoinCons(l0, [l1, "", ""], CRLF);
    assert [l0, l1, "", ""] == [l0] + [l1, "", ""];
    assert [l1, "", ""] == [l1] + ["", ""];
  }

  /** Header lines for three distinct colon-free keys, then the blank line, decode to those three fields. */
  lemma ThreeFields(k1: string, v1: string, k2: string, v2: string, k3: string, v3: string)
    requires ':' !in k1 && ':' !in k2 && ':' !in k3
    requires k1 != k2 && k1 != k3 && k2 != k3
    ensures HeadersOf([k1 + HeaderSep + v1, k2 + HeaderSep + v2, k3 + HeaderSep + v3, "", ""]) == map[k1 := v1, k2 := v2, k3 := v3]
  {
    var l1, l2, l3 := k1 + HeaderSep + v1, k2 + HeaderSep + v2, k3 + HeaderSep + v3;
    var s1, s2, s3, s4 := [l1], [l1, l2], [l1, l2, l3], [l1, l2, l3, ""];
    HeaderLine(k1, v1);
    HeaderLine(k2, v2);
    HeaderLine(k3, v3);
    assert SplitHeader("") == None;
    HeadersOfSnoc([], l1);
    assert s1 == [] + [l1];
    HeadersOfSnoc(s1, l2);
    assert s2 == s1 + [l2];
    HeadersOfSnoc(s2, l3);
    assert s3 == s2 + [l3];
    HeadersOfSnoc(s3, "");
    assert s4 == s3 + [""];
    HeadersOfSnoc(s4, "");
    assert [l1, l2, l3, "", ""] == s4 + [""];
  }

  lemma TwoFields(k1: string, v1: string, k2: string, v2: string)
    requires ':' !in k1 && ':' !in k2 && k1 != k2
    ensures HeadersOf([k1 + HeaderSep + v1, k2 + HeaderSep + v2, "", ""]) == map[k1 := v1, k2 := v2]
  {
    var l1, l2 := k1 + HeaderSep + v1, k2 + HeaderSep + v2;
    var s1, s2, s3 := [l1], [l1, l2], [l1, l2, ""];
    HeaderLine(k1, v1);
    HeaderLine(k2, v2);
    assert SplitHeader("") == None;
    HeadersOfSnoc([], l1);
    assert s1 == [] + [l1];
    HeadersOfSnoc(s1, l2);
    assert s2 == s1 + [l2];
    HeadersOfSnoc(s2, "");
    assert s3 == s2 + [""];
    HeadersOfSnoc(s3, "");
    assert [l1, l2, "", ""] == s3 + [""];
  }

  lemma OneField(k1: string, v1: string)
    requires ':' !in k1
    ensures HeadersOf([k1 + HeaderSep + v1, "", ""]) == map[k1 := v1]
  {
    var l1 := k1 + HeaderSep + v1;
    var s1, s2 := [l1], [l1, ""];
    HeaderLine(k1, v1);
    assert SplitHeader("") == None;
    HeadersOfSnoc([], l1);
    assert s1 == [] + [l1];
    HeadersOfSnoc(s1, "");
    assert s2 == s1 + [""];
    HeadersOfSnoc(s2, "");
    assert [l1, "", ""] == s2 + [""];
  }

  /** Lines none of which splits as a header contribute nothing. */
  lemma NoFields(l1: string, l2: string, l3: string)
    requires SplitHeader(l1).None? && SplitHeader(l2).None? && SplitHeader(l3).None?
    ensures HeadersOf([l1, l2, l3, "", ""]) == map[]
  {
    var s1, s2, s3, s4 := [l1], [l1, l2], [l1, l2, l3], [l1, l2, l3, ""];
    assert SplitHeader("") == None;
    HeadersOfSnoc([], l1);
    assert s1 == [] + [l1];
    HeadersOfSnoc(s1, l2);
    assert s2 == s1 + [l2];
    HeadersOfSnoc(s2, l3);
    assert s3 == s2 + [l3];
    HeadersOfSnoc(s3, "");
    assert s4 == s3 + [""];
    HeadersOfSnoc(s4, "");
    assert [l1, l2, l3, "", ""] == s4 + [""];
  }

  /** Six CRLF-free lines joined with CRLF split back into themselves. */
  lemma SplitSix(l0: string, l1: string, l2: string, l3: string)
    requires Free(l0, CRLF) && Free(l1, CRLF) && Free(l2, CRLF) && Free(l3, CRLF)
    ensures Split(l0 + CRLF + (l1 + CRLF + (l2 + CRLF + (l3 + CRLF + ("" + CRLF + "")))), CRLF) == [l0, l1, l2, l3, "", ""]
  {
    var lines := [l0, l1, l2, l3, "", ""];
    FreeOfCR("");
    JoinSix(l0, l1, l2, l3);
    SplitJoinLines(lines);
  }

  lemma SplitFive(l0: string, l1: string, l2: string)
    requires Free(l0, CRLF) && Free(l1, CRLF) && Free(l2, CRLF)
    ensures Split(l0 + CRLF + (l1 + CRLF + (l2 + CRLF + ("" + CRLF + ""))), CRLF) == [l0, l1, l2, "", ""]
  {
    FreeOfCR("");
    JoinFive(l0, l1, l2);
    SplitJoinLines([l0, l1, l2, "", ""]);
  }

  lemma SplitFour(l0: string, l1: string)
    requires Free(l0, CRLF) && Free(l1, CRLF)
    ensures Split(l0 + CRLF + (l1 + CRLF + ("" + CRLF + "")), CRLF) == [l0, l1, "", ""]
  {
    FreeOfCR("");
    JoinFour(l0, l1);
    SplitJoinLines([l0, l1, "", ""]);
  }

  lemma RegisterMessageShape(id: string, ip: string, portText: string)
    ensures RegisterMessage(id, ip, portText) ==
      "REGISTER" + CRLF + (("clientID" + HeaderSep + id) + CRLF + (("IP" + HeaderSep + ip) + CRLF +
        (("Port" + HeaderSep + portText) + CRLF + ("" + CRLF + ""))))
  {
  }

  lemma BridgeRequestShape(id: string)
    ensures BridgeRequest(id) == "BRIDGE" + CRLF + (("clientID" + HeaderSep + id) + CRLF + ("" + CRLF + ""))
  {
  }

  lemma ChatMessageShape(id: string, message: string)
    ensures ChatMessage(id, message) ==
      "CHAT" + CRLF + (("clientID" + HeaderSep + id) + CRLF + (("message" + HeaderSep + message) + CRLF + ("" + CRLF + "")))
  {
  }

  lemma BridgeAckShape(id: string, ip: string, port: nat)
    ensures BridgeAck(id, ip, port) ==
      "BRIDGEACK" + CRLF + (("clientID" + HeaderSep + id) + CRLF + (("IP" + HeaderSep + ip) + CRLF +
        (("Port" + HeaderSep + Decimal(port)) + CRLF + ("" + CRLF + ""))))
  {
  }

  lemma RegAckErrorShape()
    ensures RegAckError == "REGACK" + CRLF + (("Status" + HeaderSep + "error") + CRLF + ("" + CRLF + ""))
  {
  }

  lemma ChatAckErrorShape()
    ensures ChatAckError == "CHATACK" + CRLF + (("Status" + HeaderSep + "error") + CRLF + ("" + CRLF + ""))
  {
  }

  lemma ChatAckDeliveredShape()
    ensures ChatAckDelivered == "CHATACK" + CRLF + (("Status" + HeaderSep + "delivered") + CRLF + ("" + CRLF + ""))
  {
  }

  lemma ChatAckNoPeersShape()
    ensures ChatAckNoPeers == "CHATACK" + CRLF + (("Status" + HeaderSep + "no peers available") + CRLF + ("" + CRLF + ""))
  {
  }

  lemma UnknownTypeReplyShape()
    ensures UnknownTypeReply == "ERROR" + CRLF + (("Message" + HeaderSep + "Unknown request type") + CRLF + ("" + CRLF + ""))
  {
  }

  lemma EmptyBridgeAckShape()
    ensures BridgeAckEmpty ==
      "BRIDGEACK" + CRLF + (("clientID" + ":") + CRLF + (("IP" + ":") + CRLF + (("Port" + ":") + CRLF + ("" + CRLF + ""))))
  {
  }

  /**
    A REGISTER request decodes to type REGISTER and exactly the three
    headers it was built from, provided the values contain no CRLF.
   */
  lemma RegisterMessageDecodes(id: string, ip: string, portText: string)
    requires Free(id, CRLF) && Free(ip, CRLF) && Free(portText, CRLF)
    ensures RequestType(RegisterMessage(id, ip, portText)) == "REGISTER"
    ensures MessageHeaders(RegisterMessage(id, ip, portText)) == map["clientID" := id, "IP" := ip, "Port" := portText]
  {
    var l1, l2, l3 := "clientID" + HeaderSep + id, "IP" + HeaderSep + ip, "Port" + HeaderSep + portText;
    var lines := Split(RegisterMessage(id, ip, portText), CRLF);
    assert lines == ["REGISTER", l1, l2, l3, "", ""] by {
      FieldLineFree("clientID", id);
      FieldLineFree("IP", ip);
      FieldLineFree("Port", portText);
      FreeOfCR("REGISTER");
      RegisterMessageShape(id, ip, portText);
      SplitSix("REGISTER", l1, l2, l3);
    }
    assert lines[1..] == [l1, l2, l3, "", ""];
    ThreeFields("clientID", id, "IP", ip, "Port", portText);
  }

  /**
    Round trip from the client to the server: the clients' REGISTER request
    decodes to its ID, its IP and its port printed in decimal.
   */
  lemma RegisterRequestDecodes(id: string, ip: string, port: nat)
    requires Free(id, CRLF) && Free(ip, CRLF)
    ensures RequestType(RegisterRequest(id, ip, port)) == "REGISTER"
    ensures MessageHeaders(RegisterRequest(id, ip, port)) == map["clientID" := id, "IP" := ip, "Port" := Decimal(port)]
  {
    FreeOfCR(Decimal(port));
    RegisterMessageDecodes(id, ip, Decimal(port));
  }

  /** Round trip: the BRIDGE request decodes to type BRIDGE and just its clientID. */
  lemma BridgeRequestDecodes(id: string)
    requires Free(id, CRLF)
    ensures RequestType(BridgeRequest(id)) == "BRIDGE"
    ensures MessageHeaders(BridgeRequest(id)) == map["clientID" := id]
  {
    var l1 := "clientID" + HeaderSep + id;
    var lines := Split(BridgeRequest(id), CRLF);
    assert lines == ["BRIDGE", l1, "", ""] by {
      FieldLineFree("clientID", id);
      FreeOfCR("BRIDGE");
      BridgeRequestShape(id);
      SplitFour("BRIDGE", l1);
    }
    assert lines[1..] == [l1, "", ""];
    OneField("clientID", id);
  }

  /**
    Round trip: a CHAT message, as the client sends it and as the server
    relays it, decodes to type CHAT with exactly its clientID and message.
   */
  lemma ChatMessageDecodes(id: string, message: string)
    requires Free(id, CRLF) && Free(message, CRLF)
    ensures RequestType(ChatMessage(id, message)) == "CHAT"
    ensures MessageHeaders(ChatMessage(id, message)) == map["clientID" := id, "message" := message]
  {
    var l1, l2 := "clientID" + HeaderSep + id, "message" + HeaderSep + message;
    var lines := Split(ChatMessage(id, message), CRLF);
    assert lines == ["CHAT", l1, l2, "", ""] by {
      FieldLineFree("clientID", id);
      FieldLineFree("message", message);
      FreeOfCR("CHAT");
      ChatMessageShape(id, message);
      SplitFive("CHAT", l1, l2);
    }
    assert lines[1..] == [l1, l2, "", ""];
    TwoFields("clientID", id, "message", message);
  }

  /** The server's BRIDGEACK naming a peer decodes to that peer's clientID, IP and printed port. */
  lemma BridgeAckDecodes(id: string, ip: string, port: nat)
    requires Free(id, CRLF) && Free(ip, CRLF)
    ensures RequestType(BridgeAck(id, ip, port)) == "BRIDGEACK"
    ensures MessageHeaders(BridgeAck(id, ip, port)) == map["clientID" := id, "IP" := ip, "Port" := Decimal(port)]
  {
    var p := Decimal(port);
    var l1, l2, l3 := "clientID" + HeaderSep + id, "IP" + HeaderSep + ip, "Port" + HeaderSep + p;
    var lines := Split(BridgeAck(id, ip, port), CRLF);
    assert lines == ["BRIDGEACK", l1, l2, l3, "", ""] by {
      FreeOfCR(p);
      FieldLineFree("clientID", id);
      FieldLineFree("IP", ip);
      FieldLineFree("Port", p);
      FreeOfCR("BRIDGEACK");
      BridgeAckShape(id, ip, port);
      SplitSix("BRIDGEACK", l1, l2, l3);
    }
    assert lines[1..] == [l1, l2, l3, "", ""];
    ThreeFields("clientID", id, "IP", ip, "Port", p);
  }

  /** A message whose field lines are bare keys followed by a colon decodes to no headers. */
  lemma BareFieldsDecode(t: string, k1: string, k2: string, k3: string)
    requires '\r' !in t && '\r' !in k1 && '\r' !in k2 && '\r' !in k3
    requires ':' !in k1 && ':' !in k2 && ':' !in k3
    ensures var m := t + CRLF + ((k1 + ":") + CRLF + ((k2 + ":") + CRLF + ((k3 + ":") + CRLF + ("" + CRLF + ""))));
      RequestType(m) == t && MessageHeaders(m) == map[]
  {
    var l1, l2, l3 := k1 + ":", k2 + ":", k3 + ":";
    var m := t + CRLF + (l1 + CRLF + (l2 + CRLF + (l3 + CRLF + ("" + CRLF + ""))));
    var lines := Split(m, CRLF);
    assert lines == [t, l1, l2, l3, "", ""] by {
      FreeOfCR(t);
      FreeOfCR(l1);
      FreeOfCR(l2);
      FreeOfCR(l3);
      SplitSix(t, l1, l2, l3);
    }
    assert lines[1..] == [l1, l2, l3, "", ""];
    BareKeyLine(k1);
    BareKeyLine(k2);
    BareKeyLine(k3);
    NoFields(l1, l2, l3);
  }

  /**
    The server's empty BRIDGEACK decodes to NO headers: its lines carry a
    colon but not `": "`.
   */
  lemma EmptyBridgeAckDecodes()
    ensures RequestType(BridgeAckEmpty) == "BRIDGEACK"
    ensures MessageHeaders(BridgeAckEmpty) == map[]
  {
    EmptyBridgeAckShape();
    BareFieldsDecode("BRIDGEACK", "clientID", "IP", "Port");
  }
}
